=== FILE: README.md ===
# Console front-ends of the Zentitle licensing samples: command authorisation and session loops

The sample console tools drive a license activation through a menu. Each tool
has an action table: for every activation state (`Active`, `LeaseExpired`,
`NotActivated`, `EntitlementNotActive`) an ordered list of named actions, and,
in two of the three tools, the set of nullable activation modes (`Online`,
`Offline`, or none yet) in which each action is offered. The session loop
shows the actions of the current state that the current mode allows, appends
"Quit", and resolves the chosen label by first match in the state's list. The
Shared tool, whose activation is persisted for several processes, builds the
menu under a system-wide lock, prompts with the lock released, and re-checks
the state under a second lock section before running anything.

This project models that layer in Dafny and proves what it promises:

- `Licensing`, `ActionRecord`, `OnlineActionRecord`: the SDK vocabulary (state,
  nullable mode, feature records with `int?` counters as `Option<int>`) and the
  two action records. An action's body is an opaque SDK effect, represented by a
  `Command` tag. The records are immutable datatypes, so their get-only
  accessors hold their constructor arguments by construction.
- `ActivationActions`, `SharedActions`, `OnlineActions`: the three tables. Each
  `AvailableActions` is a total function of the state, since the source
  dictionaries have an entry for all four states. Each entry's mode set is
  checked against an independent per-command reference (`IntendedModes`).
- `ActionBodies`: the decision logic inside the action bodies. The seat-name
  normalisation is common to all three tools. The three feature eligibility
  filters (with C#'s `&&`/`||` precedence in the checkout filter), the early
  exits before any backend call, and the lease-refresh report come from the
  Activation and Shared tools. The
  token-activation error handling comes from the Activation and online tools;
  the Shared tool has no token activation. The online tool's differing filter,
  by-key calls and lease-refresh report are in `OnlineActions`.
- `Session`, `ActivationProgram`, `OnlineProgram`, `SharedProgram`: the menu
  loops. The SDK is an oracle: a round records the state and mode read for the
  menu, the user's choice, and the state read again when the choice is
  resolved. In the Shared loop each of the four reads of `State` is its own
  input, and the lock sections are modelled as events (`Acquire`, `ReadMode`,
  `ReadState`, `Prompt`, `Invoke`, `Release`, ...); a session's event log is
  the concatenation of its iterations' events and is proved to keep the lock
  discipline for the loop's own steps (an action body is one `Invoke`).
- `OptionsValidation`: `FluentValidationOptions.Validate`, with a parser for
  its failure lines that proves them lossless.
- `CoreLibResolver`: `Zentitle2CoreLibResolver.DllImportResolver`. The result
  is `Fallback` (`IntPtr.Zero`) or the path it loads.

The Shared tool's re-check compares `State` only
(SharedActivation.Console/Program.cs:97), so a change of `Mode` goes unnoticed
(`SharedProgram.ModeChangeGoesUnnoticed`). The lookup that follows reads
`State` again (SharedActivation.Console/Program.cs:102), so a state that moves
between the two reads passes the check and still makes `First` throw
(`SharedProgram.LookupReadCanThrow`).

## Model

| member | source | states |
|---|---|---|
| Sequences.FirstIndex | Activation.Console/Program.cs:121 | `First` by key: no index exactly when no element matches (the case in which `First` throws); otherwise the index of a match with no match before it |
| ActionRecord.InModeExactly | Activation.Console/Program.cs:112-113 | an action is in the mode-filtered list exactly when it is in the state's list and its mode set contains the current mode |
| ActionRecord.InMode | Activation.Console/Program.cs:113 | the `Where` filter keeps only entries of the list offered in the mode, keeps every such entry, and never lengthens the list |
| ActionRecord.OfferedNamesShown | Activation.Console/Program.cs:112-113 | the label of every action of the list offered in the mode is among the filtered labels |
| ActionRecord.MenuOf | Activation.Console/Program.cs:110-114 | the menu of the mode-aware loops: "Quit" last; before it the labels of the mode-filtered list in table order; each belongs to an entry offered in the mode, and every offered entry's label is shown |
| ActionRecord.MenuChoiceResolves | Activation.Console/Program.cs:110-121 | with distinct labels, any menu choice other than "Quit" resolves by first match to an action of the filtered list carrying that label |
| ActionRecord.ResolveDisplayed | Activation.Console/Program.cs:121 | with distinct labels, a label shown in the filtered menu resolves by first match in the unfiltered list to an action that is in the filtered menu and is offered in that mode |
| ActionRecord.Resolve | Activation.Console/Program.cs:121 | `First` by name: no result exactly when no entry has the name (the case in which `First` throws); otherwise an entry of the list with that name and no entry of that name before it |
| OnlineActionRecord.Resolve | OnlineActivation.Console/Program.cs:66 | `First` by name on the online list, with the same contract as in the mode-aware tools |
| OnlineActionRecord.ResolveDisplayed | OnlineActivation.Console/Program.cs:66 | with distinct labels, the k-th label resolves to the k-th action |
| ActivationActions.EveryStateShowsInfo | Activation.Console/ActivationActions.cs:307-340 | every state has a list (the lookup never fails), and it starts with "Show activation info" |
| ActivationActions.AvailableActions | Activation.Console/ActivationActions.cs:307-340 | the dictionary has a non-empty list for every state, and each list starts with "Show activation info" |
| ActivationActions.ModeSetsAsIntended | Activation.Console/ActivationActions.cs:14-304 | every listed entry is offered in exactly its command's intended modes: activation commands with no mode only, Show and PullLocal in all three, RefreshOffline and DeactivateOffline offline only, GetEntitlement online or offline, everything else online only |
| ActivationActions.NamesDistinct | Activation.Console/ActivationActions.cs:307-340 | no label repeats within any state's list |
| ActivationActions.ActiveShape | Activation.Console/ActivationActions.cs:309-316 | the Active list has 11 entries and ends with Deactivate, DeactivateOffline, GetActivationEntitlement |
| ActivationActions.ActivationCommandsHiddenOnceModeSet | Activation.Console/ActivationActions.cs:14-81 | once a mode is set, no entry of any state's filtered menu is one of the four activation commands |
| ActivationActions.NotActivatedWithoutMode | Activation.Console/ActivationActions.cs:325-331 | with no mode yet, the NotActivated menu offers activation with a code and only entries meant for "no mode" |
| ActivationActions.NotActivatedOnceModeSet | Activation.Console/ActivationActions.cs:325-331 | under either mode the NotActivated menu is exactly "Show activation info", "Pull activation state from the local storage" |
| SharedActions.AvailableActions | SharedActivation.Console/ActivationActions.cs:237-270 | the dictionary has a list for every state, starting with "Show activation info" and ending with "Acquire lock" |
| SharedActions.ModeSetsAsIntended | SharedActivation.Console/ActivationActions.cs:14-234 | every listed entry is offered in exactly its intended modes: Show and AcquireLock in all three, ActivateWithCode, PullServer and PullLocal online or with no mode, everything else online only |
| SharedActions.NamesDistinct | SharedActivation.Console/ActivationActions.cs:237-270 | no label repeats within any state's list |
| SharedActions.AcquireLockLastEverywhere | SharedActivation.Console/ActivationActions.cs:237-270 | every state's list ends with AcquireLock, and it survives every mode filter, including "no mode" |
| SharedActions.OfflineMenuCollapses | SharedActivation.Console/ActivationActions.cs:237-270 | under an offline activation every state's filtered menu is exactly "Show activation info", "Acquire lock" |
| OnlineActions.AvailableActions | OnlineActivation.Console/ActivationActions.cs:178-204 | the dictionary has a non-empty list for every state, and each list starts with "Show activation info" |
| OnlineActions.NamesDistinct | OnlineActivation.Console/ActivationActions.cs:178-204 | no label repeats within any state's list |
| OnlineActions.CommandsByState | OnlineActivation.Console/ActivationActions.cs:178-204 | activation commands appear only in NotActivated and EntitlementNotActive, checkout and return only in Active, and NotActivated offers neither deactivation nor refresh |
| OnlineActions.CheckoutEligible | OnlineActivation.Console/ActivationActions.cs:96 | the online checkout filter: a feature qualifies exactly when its availability is set and positive |
| OnlineActions.CheckoutNarrowerThanShared | OnlineActivation.Console/ActivationActions.cs:96 | the online checkout filter admits only what the other tools' filter admits, and drops exactly the non-Bool features whose availability is unset |
| OnlineActions.CheckoutFeatureByKey | OnlineActivation.Console/ActivationActions.cs:92-121 | the SDK is called by key exactly when some feature is eligible and the choice is not "None"; the key is then an eligible feature's key; an empty eligible list is reported as such; no key lookup can fail |
| OnlineActions.ReturnFeatureByKey | OnlineActivation.Console/ActivationActions.cs:123-154 | as for checkout, with the return filter |
| OnlineActions.RefreshReportAsWritten | OnlineActivation.Console/ActivationActions.cs:76-90 | the report always ends with the success line; it contains the failure line exactly when the refresh failed |
| OnlineActions.RefreshReportsSuccessAfterFailure | OnlineActivation.Console/ActivationActions.cs:83-89 | after a failed refresh the report as written announces success, while the corrected report does not |
| OnlineActions.RefreshReportAgreesOnSuccess | OnlineActivation.Console/ActivationActions.cs:76-90 | after a successful refresh the report as written equals the corrected one |
| ActionBodies.SeatNameArgument | Activation.Console/ActivationActions.cs:19-20 | the seat name sent is present exactly when the input holds a non-white-space character, and is then the input unchanged |
| ActionBodies.SeatNameArgumentIdempotent | Activation.Console/ActivationActions.cs:20 | normalising a normalised seat name changes nothing |
| ActionBodies.ActivateWithCodeRequest | Activation.Console/ActivationActions.cs:18-20 | the code goes through as typed; the seat name is null exactly when the input is null or white space, and otherwise the input |
| ActionBodies.ActivateWithToken | Activation.Console/ActivationActions.cs:27-50 | a null token ends the action with no SDK call; otherwise token and seat name go through unchanged, the info panel is shown exactly on success, licensing API failures become an "Activation failed" error, and only other exceptions propagate |
| ActionBodies.CheckoutEligible | Activation.Console/ActivationActions.cs:149 | the checkout filter as C# groups it: a non-Bool feature with unset availability, or any feature with positive availability |
| ActionBodies.ReturnEligible | Activation.Console/ActivationActions.cs:191 | the return filter: an element-pool feature with a positive active count |
| ActionBodies.TrackEligible | Activation.Console/ActivationActions.cs:234 | the tracking filter: Bool features only |
| ActionBodies.CheckoutEligibleCases | Activation.Console/ActivationActions.cs:148-150 | a Bool feature is eligible exactly when its availability is positive; any other feature exactly when its availability is unset or positive; a set, non-positive availability never qualifies |
| ActionBodies.CheckoutPrecedenceMatters | Activation.Console/ActivationActions.cs:149 | the filter as parsed and the reading "not Bool and (unset or positive)" differ exactly on Bool features with positive availability, which the filter admits |
| ActionBodies.SelectOptions | Activation.Console/ActivationActions.cs:161-162 | the feature prompt offers the key of every eligible feature, nothing but eligible features' keys, and "None" as its last option |
| ActionBodies.SelectFeature | Activation.Console/ActivationActions.cs:152-166 | nothing eligible exactly when no feature passes the filter; declined exactly when something is eligible and "None" is chosen; otherwise the chosen key belongs to an eligible feature |
| ActionBodies.NoneKeyedFeatureUnreachable | Activation.Console/ActivationActions.cs:161-166 | a feature whose key is "None" can never be chosen |
| ActionBodies.CheckoutFeature | Activation.Console/ActivationActions.cs:148-180 | each outcome happens exactly in its case: "no eligible features" exactly when nothing is eligible; "declined" exactly when something is and the choice is "None"; "key not found" (with the chosen key) exactly when something is eligible, the choice is not "None" and the key is missing; otherwise the backend is called with the looked-up feature and the amount |
| ActionBodies.ReturnFeature | Activation.Console/ActivationActions.cs:190-223 | as for checkout, with the return filter (`Active > 0` and element-pool) |
| ActionBodies.TrackBoolFeatureUsage | Activation.Console/ActivationActions.cs:233-261 | as for checkout, with the Bool filter and no amount |
| ActionBodies.RefreshReport | Activation.Console/ActivationActions.cs:114-128 | exactly one line: the success line exactly when the SDK reported a refresh, with the expiry before and after the call; otherwise the failure line with the expiry current after the call |
| Session.RunLoop | Activation.Console/Program.cs:106-125 | every iteration but the last runs an action; the loop stops early only on an iteration that does not run one; each outcome is that round's step |
| ActivationProgram.Configure | Activation.Console/Program.cs:38-81 | online support is always configured; offline support exactly with `UseCoreLibrary`, and only together with the native-library resolver |
| ActivationProgram.SeatIdProvider | Activation.Console/Program.cs:62-71 | confirmation is asked exactly when the core library is in use; the device fingerprint is the seat ID exactly when it is in use and the user confirms |
| ActivationProgram.Menu | Activation.Console/Program.cs:110-114 | the menu ends with "Quit"; before it come the labels of the mode-filtered list in table order; every such label belongs to an action of the state's list offered in the current mode, and every offered action's label is shown |
| ActivationProgram.Step | Activation.Console/Program.cs:116-123 | Quit exactly on "Quit"; a failed lookup exactly when the label is absent from the list of the state read after the prompt; otherwise the action of that label runs |
| ActivationProgram.StepRunsDisplayedAction | Activation.Console/Program.cs:110-123 | with the state unchanged, a displayed non-Quit label always runs the displayed action, which the menu's mode offers |
| ActivationProgram.StaleMenuCanThrow | Activation.Console/Program.cs:110-121 | if the lease expires between menu and lookup, a checkout shown while Active/Online is not found and `First` throws |
| ActivationProgram.RunSession | Activation.Console/Program.cs:104-125 | the whole loop: one action per non-Quit iteration, stop at the first non-running iteration, and a failed lookup only in a round whose state changed after the menu was built |
| OnlineProgram.Menu | OnlineActivation.Console/Program.cs:59-60 | the menu is every label of the state's list, in order, then "Quit" |
| OnlineProgram.Step | OnlineActivation.Console/Program.cs:61-68 | Quit exactly on "Quit"; a failed lookup exactly when the label is absent from the state's list; otherwise the action of that label runs |
| OnlineProgram.MenuIgnoresMode | OnlineActivation.Console/Program.cs:59-60 | the activation mode never changes the menu |
| OnlineProgram.StepRunsDisplayedAction | OnlineActivation.Console/Program.cs:59-67 | with the state unchanged, choosing the k-th label runs the k-th action |
| OnlineProgram.RunSession | OnlineActivation.Console/Program.cs:53-70 | the whole loop, as in the Activation tool but unfiltered: a failed lookup only in a round whose state changed after the menu was built |
| SharedProgram.LockName | SharedActivation.Console/Program.cs:66-69 | the lock name is the fixed prefix followed by the assembly name, with nothing per run |
| SharedProgram.LockNameInjective | SharedActivation.Console/Program.cs:66-69 | two tools share the lock exactly when their assembly names are equal |
| SharedProgram.Menu | SharedActivation.Console/Program.cs:79-85 | the menu built in the first section ends with "Quit"; before it come the labels of the mode-filtered list in table order, and every offered action's label is shown |
| SharedProgram.Execute | SharedActivation.Console/Program.cs:89-105 | Quit exactly on "Quit"; aborted exactly when the choice is not "Quit" and the compared state differs from the snapshot; a failed lookup exactly when the states agree and the choice is not a label of the list of the state read for the lookup; an action runs only when the states agree, and it is an entry of that list with the chosen label |
| SharedProgram.GuardedResolutionSucceeds | SharedActivation.Console/Program.cs:97-103 | when no read inside a section saw the state move and the states agree, a displayed choice always resolves, to the action displayed under the snapshot's mode |
| SharedProgram.LookupReadCanThrow | SharedActivation.Console/Program.cs:97-102 | a checkout displayed under Active/Online, with the state still Active at the comparison and LeaseExpired at the lookup, passes the check and fails to resolve |
| SharedProgram.ModeChangeGoesUnnoticed | SharedActivation.Console/Program.cs:95-104 | the second section reads no mode: a checkout chosen under Active/Online runs whatever the mode has become, although the offline menu does not offer it |
| SharedProgram.RoundEventsDisciplined | SharedActivation.Console/Program.cs:79-105 | one iteration reads the mode and the state only under the lock, shows the menu prompt with it released, runs or refuses the action under the second section, takes no second section on Quit, and leaves the lock free (for a round ending in a failed lookup, on the assumption that the section releases the lock when its body throws) |
| SharedProgram.ExecuteNeverFailsToResolve | SharedActivation.Console/Program.cs:95-104 | with a displayed choice and no state move inside either section, the second section never meets a failed lookup |
| SharedProgram.LogDisciplined | SharedActivation.Console/Program.cs:75-107 | the events of iterations run one after another keep the lock discipline when each iteration's events do |
| SharedProgram.RunRounds | SharedActivation.Console/Program.cs:75-107 | the loop runs iterations until the first Quit or failed lookup (an uncaught exception); its log is exactly the events of the iterations it ran, in order, and is disciplined |
| SharedProgram.RunSharedSession | SharedActivation.Console/Program.cs:75-107 | the session's log is exactly the events of the iterations it ran, in order, and keeps the lock discipline; a failed lookup happens only in a round where a read inside a section saw the state move; in the other rounds an action runs exactly when the choice is not "Quit" and the state is unchanged; every iteration but the last runs or aborts, and the session ends early only at a Quit or a failed lookup |
| OptionsValidation.Message | Activation.Console/Options/FluentValidationExtensions.cs:76-80 | a failure line is the options type name and the property name joined by a dot and enclosed in single quotes, then `: `, then the error message enclosed in single quotes, then a full stop; the message appears verbatim and the line's length is the parts' lengths plus the eight punctuation characters |
| OptionsValidation.Validate | Activation.Console/Options/FluentValidationExtensions.cs:47-84 | Skip exactly for a named registration and a different name; throws exactly on null options otherwise; Success exactly when the validator reports no error; otherwise one failure line per error, in order |
| OptionsValidation.ParseMessageOfMessage | Activation.Console/Options/FluentValidationExtensions.cs:80 | a failure line reads back as the property name and message it was built from, whenever the property name has no quote |
| OptionsValidation.MessageOfParse | Activation.Console/Options/FluentValidationExtensions.cs:80 | whatever reads back as a property name and message is exactly the failure line built from them |
| OptionsValidation.MessageInjective | Activation.Console/Options/FluentValidationExtensions.cs:76-81 | two different errors of one options type never produce the same failure line, whenever neither property name contains a quote (no property of these options types does; the line format cannot tell `a': 'b` / `c` from `a` / `b': 'c`) |
| OptionsValidation.FailuresRecoverErrors | Activation.Console/Options/FluentValidationExtensions.cs:76-83 | a failed validation loses nothing: every error can be read back, in order, from the failure lines |
| CoreLibResolver.LibraryPath | Activation.Console/Zentitle2CoreLibResolver.cs:31-45 | every path loaded is the placeholder directory, a slash, the platform build's folder, a slash and the file name, with each part recoverable from its position |
| CoreLibResolver.DllImportResolver | Activation.Console/Zentitle2CoreLibResolver.cs:18-50 | a file is loaded exactly for the name "Zentitle2Core" on macOS, Windows, Linux or FreeBSD; it lies below the placeholder directory and carries the first matching platform's file name (`libZentitle2Core.dylib`, `Zentitle2Core.dll`, `libZentitle2Core.so`); the folder is `MacOS_x86_64` for an X64 or X86 Mac, `MacOS_arm64` for any other Mac, `Windows_x86_64` on Windows and `Linux_x86_64` on Linux or FreeBSD |
| CoreLibResolver.MacOsChoosesByArchitecture | Activation.Console/Zentitle2CoreLibResolver.cs:26-35 | on macOS an X64 or X86 host loads the x86_64 build, every other host the arm64 build |
| CoreLibResolver.ArchitectureIgnoredOffMacOs | Activation.Console/Zentitle2CoreLibResolver.cs:37-49 | off macOS the architecture never changes the result |
| CoreLibResolver.FirstPlatformWins | Activation.Console/Zentitle2CoreLibResolver.cs:26-46 | a host answering yes to Windows and Linux/FreeBSD gets the Windows library, or the macOS one when it also answers yes to macOS |
| CoreLibResolver.FreeBsdSharesLinuxBuild | Activation.Console/Zentitle2CoreLibResolver.cs:42-46 | FreeBSD loads the same file as Linux |

## Left out

- Action bodies' effects: the SDK calls (activate, refresh, checkout, return, track, deactivate, entitlement fetch, state pulls) are opaque remote effects. The model records which call is made and with which arguments, not what it does to the activation.
- Console I/O: prompts, tables, panels and colours. A prompt's answer is an input, and a report is a datatype of lines without their formatting.
- The identity-provider login that supplies the OpenID token (`UserAuthenticator`). This is network and browser plumbing; only its null-token outcome is modelled.
- The cross-process lock's implementation. `ExecuteWithLock` is an exclusive section, bracketed by `Acquire`/`Release` events; release on exception and reentrancy belong to the SDK and are not visible here (see the `SharedProgram.RoundEvents` line).
- The options validators themselves (`LicensingOptionsValidator` and friends). Which errors a validator reports is an input to `OptionsValidation.Validate`. The DI wiring in `ConfigureWithValidator`/`ValidateFluentValidation` is also out.
- Offline-token actions' bodies (GenerateOfflineActivationRequest, ActivateOffline, RefreshOfflineActivationLease, DeactivateOffline) and GetActivationEntitlement's JSON rendering: they make one SDK call and print, with no decision logic. AcquireLock's body makes no SDK call: it prints, waits for a key press and prints again, all while the second section holds the lock; it is left out as it has no decision logic.
- The other sample programs, the webhook signature check, license storage and display helpers: outside the command-authorisation layer.
- SharedProgram.RoundEvents: a section whose body throws is taken to release the lock. In a round ending in a failed lookup, `First` throws inside the second section, and the round's events still end with `Release`. The discipline of a session that ends in a failed lookup, as stated by `RoundEventsDisciplined` and `RunSharedSession`, depends on `ExecuteWithLock` releasing on an exception, which is SDK code outside this model.
- SharedProgram.Disciplined: action bodies run inside the second section, so their own prompts (the feature and amount prompts, the activation-code prompts) and AcquireLock's key wait happen with the lock held. An action body is one opaque `Invoke` event, so the discipline covers only the loop's own reads and its menu prompt.
- OnlineProgram.SeatId: the fixed seat ID is a constant, with no contract to state.
- Session.RunLoop: running out of rounds stands for the process being stopped from outside; an exception thrown by an action body (which ends the C# program) is not modelled beyond `First` throwing.

## Findings

| source | as written | input that shows it | evidently intended | confidence | as-written member | corrected member |
|---|---|---|---|---|---|---|
| OnlineActivation.Console/ActivationActions.cs:83-89 | the "could not be refreshed" branch has no `else`, so the "successfully refreshed" line is printed after it as well | `RefreshLease()` returns false | print the success line only when the refresh succeeded, as the Activation and Shared tools do | not executed | OnlineActions.RefreshReportsSuccessAfterFailure | ActionBodies.RefreshReport |

=== FILE: action_bodies.dfy ===
/** The decision logic inside the action bodies of the front-ends: the
    seat-name normalisation and the feature eligibility filters with their
    early exits (Activation and Shared), the token-activation error handling
    (Activation and online-only), and the lease-refresh report (Activation and
    Shared; the online-only variant is modelled with its own actions).
    The SDK calls themselves are opaque; an action's observable result is which
    call it makes, with which arguments, or which early exit it takes. */
module ActionBodies {
  import opened Wrappers
  import opened Sequences
  import opened Licensing

  // ---------------------------------------------------------------- seat name

  /** .NET `char.IsWhiteSpace`: U+0009..U+000D, U+0020, U+0085, U+00A0, and the
      Unicode space, line and paragraph separators. */
  predicate IsWhiteSpace(c: char) {
    || ('\U{0009}' <= c <= '\U{000D}')
    || c == '\U{0020}' || c == '\U{0085}' || c == '\U{00A0}' || c == '\U{1680}'
    || ('\U{2000}' <= c <= '\U{200A}')
    || c == '\U{2028}' || c == '\U{2029}' || c == '\U{202F}' || c == '\U{205F}' || c == '\U{3000}'
  }

  /** Every character is white space (vacuously true of ""). */
  predicate AllWhiteSpace(s: string)
    decreases |s|
  {
    s == [] || (IsWhiteSpace(s[0]) && AllWhiteSpace(s[1..]))
  }

  lemma {:induction false} AllWhiteSpaceMeans(s: string)
    ensures AllWhiteSpace(s) <==> forall i :: 0 <= i < |s| ==> IsWhiteSpace(s[i])
    decreases |s|
  {
    if s != [] {
      AllWhiteSpaceMeans(s[1..]);
      assert forall i :: 1 <= i < |s| ==> s[i] == s[1..][i - 1];
    }
  }

  /** `string.IsNullOrWhiteSpace`. */
  predicate IsNullOrWhiteSpace(s: Option<string>) {
    s.None? || AllWhiteSpace(s.value)
  }

  /** The seat name passed to `ActivateWithCode`: null when the input is null,
      empty or blank, and the input unchanged otherwise. */
  function SeatNameArgument(input: Option<string>): (r: Option<string>)
    ensures r.Some? <==>
      input.Some? && exists i :: 0 <= i < |input.value| && !IsWhiteSpace(input.value[i])
    ensures r.Some? ==> r == input
  {
    if input.Some? then AllWhiteSpaceMeans(input.value); ConvertBlank(input)
    else None
  }

  function ConvertBlank(input: Option<string>): (r: Option<string>) {
    if IsNullOrWhiteSpace(input) then None else input
  }

  /** Normalising twice is normalising once. */
  lemma SeatNameArgumentIdempotent(input: Option<string>)
    ensures SeatNameArgument(SeatNameArgument(input)) == SeatNameArgument(input)
  {
  }

  /** The activation-with-code request: the code as typed, the seat name
      normalised. */
  datatype CodeActivation = CodeActivation(activationCode: string, seatName: Option<string>)

  function ActivateWithCodeRequest(code: string, seatInput: Option<string>): (r: CodeActivation)
    ensures r.activationCode == code
    ensures r.seatName.None? <==> IsNullOrWhiteSpace(seatInput)
    ensures r.seatName.Some? ==> r.seatName == seatInput
  {
    AllWhiteSpaceMeans(seatInput.GetOr(""));
    CodeActivation(code, SeatNameArgument(seatInput))
  }

  // --------------------------------------------------------- token activation

  /** How the SDK's `ActivateWithOpenIdToken` call ends: normally, with a
      `LicensingApiException<ApiError>`, with a plain `LicensingApiException`,
      or with any other exception. */
  datatype ApiResponse =
    | Completed
    | ApiErrorException(errorCode: string, details: string)
    | LicensingApiException(message: string)
    | OtherException

  /** What the action shows afterwards; `Rethrown` means the exception leaves
      the action uncaught. */
  datatype Report = ActivationInfoPanel | Error(message: string) | Rethrown

  datatype TokenActivation =
    | NoToken
    | Attempted(token: string, seatName: Option<string>, report: Report)

  const ActivationFailedPrefix: string := "Activation failed"

  function ApiErrorMessage(errorCode: string, details: string): (r: string)
    ensures |r| >= |ActivationFailedPrefix| && r[..|ActivationFailedPrefix|] == ActivationFailedPrefix
  {
    ActivationFailedPrefix + " (" + errorCode + "): " + details
  }

  function LicensingErrorMessage(message: string): (r: string)
    ensures |r| >= |ActivationFailedPrefix| && r[..|ActivationFailedPrefix|] == ActivationFailedPrefix
  {
    ActivationFailedPrefix + ": " + message
  }

  /** `ActivateWithToken`: a null identity token ends the action before the
      seat-name prompt and without any SDK call; otherwise the token and the
      seat name (as typed, not normalised) go to the SDK, and licensing API
      failures are reported rather than propagated. */
  function ActivateWithToken(token: Option<string>, seatName: Option<string>, response: ApiResponse)
    : (r: TokenActivation)
    ensures r.NoToken? <==> token.None?
    ensures r.Attempted? ==> r.token == token.value && r.seatName == seatName
    ensures r.Attempted? ==> (r.report.Rethrown? <==> response.OtherException?)
    ensures r.Attempted? ==> (r.report.ActivationInfoPanel? <==> response.Completed?)
    ensures r.Attempted? && r.report.Error? ==>
      |r.report.message| >= |ActivationFailedPrefix| &&
      r.report.message[..|ActivationFailedPrefix|] == ActivationFailedPrefix
  {
    match token
    case None => NoToken
    case Some(t) =>
      var report := match response
        case Completed => ActivationInfoPanel
        case ApiErrorException(code, details) => Error(ApiErrorMessage(code, details))
        case LicensingApiException(message) => Error(LicensingErrorMessage(message))
        case OtherException => Rethrown;
      Attempted(t, seatName, report)
  }

  // ------------------------------------------------------- feature eligibility

  /** Checkout eligibility, with C#'s precedence: `&&` binds tighter than `||`,
      so this is `(Type != Bool && Available == null) || Available > 0`. */
  predicate CheckoutEligible(f: FeatureInfo) {
    (f.featureType != Bool && f.available.None?) || GreaterThan(f.available, 0)
  }

  /** The reading a human might have intended, `Type != Bool && (Available ==
      null || Available > 0)`; used only to pin down what the precedence does. */
  predicate CheckoutEligibleOtherReading(f: FeatureInfo) {
    f.featureType != Bool && (f.available.None? || GreaterThan(f.available, 0))
  }

  /** Return eligibility: `Active > 0 && Type == ElementPool`. */
  predicate ReturnEligible(f: FeatureInfo) {
    GreaterThan(f.active, 0) && f.featureType == ElementPool
  }

  /** Usage can be tracked on Bool features only. */
  predicate TrackEligible(f: FeatureInfo) {
    f.featureType == Bool
  }

  /** What the precedence means case by case: a Bool feature is eligible exactly
      when it has positive availability, any other feature exactly when its
      availability is unset or positive; a set, non-positive availability never
      qualifies. */
  lemma CheckoutEligibleCases(f: FeatureInfo)
    ensures f.featureType == Bool ==> (CheckoutEligible(f) <==> GreaterThan(f.available, 0))
    ensures f.featureType != Bool ==>
      (CheckoutEligible(f) <==> f.available.None? || f.available.value > 0)
    ensures f.available.Some? && f.available.value <= 0 ==> !CheckoutEligible(f)
  {
  }

  /** The two readings of the checkout filter disagree on exactly the Bool
      features with positive availability, which the C# filter admits. */
  lemma CheckoutPrecedenceMatters(f: FeatureInfo)
    ensures CheckoutEligible(f) != CheckoutEligibleOtherReading(f) <==>
      f.featureType == Bool && GreaterThan(f.available, 0)
    ensures CheckoutEligibleOtherReading(f) ==> CheckoutEligible(f)
  {
  }

  // ------------------------------------------------------ feature selection

  /** The extra prompt option that cancels the action. */
  const NoneChoice: string := "None"

  function Keys(fs: seq<FeatureInfo>): (r: seq<string>)
    ensures |r| == |fs|
    ensures forall i :: 0 <= i < |fs| ==> r[i] == fs[i].key
  {
    seq(|fs|, i requires 0 <= i < |fs| => fs[i].key)
  }

  /** The options of the feature prompt: the eligible keys, then "None". */
  function SelectOptions(info: seq<FeatureInfo>, eligible: FeatureInfo -> bool): (r: seq<string>)
    ensures |r| > 0 && r[|r| - 1] == NoneChoice
    ensures forall i :: 0 <= i < |info| && eligible(info[i]) ==> info[i].key in r[..|r| - 1]
    ensures forall i :: 0 <= i < |r| - 1 ==>
      exists j :: 0 <= j < |info| && eligible(info[j]) && info[j].key == r[i]
  {
    var shown := Where(info, eligible);
    var r := Keys(shown) + [NoneChoice];
    assert r[..|r| - 1] == Keys(shown);
    assert forall i :: 0 <= i < |info| && eligible(info[i]) ==> info[i] in shown;
    r
  }

  /** The user's answer can be consulted only when a prompt was shown, and a
      select prompt returns one of its options. */
  predicate ValidChoice(info: seq<FeatureInfo>, eligible: FeatureInfo -> bool, choice: string) {
    Where(info, eligible) != [] ==> choice in SelectOptions(info, eligible)
  }

  datatype Selection = NothingEligible | Declined | Chosen(key: string)

  /** The part every feature action shares: filter `Info.Features`, stop with an
      error when nothing qualifies, otherwise prompt and stop on "None". */
  function SelectFeature(info: seq<FeatureInfo>, eligible: FeatureInfo -> bool, choice: string)
    : (r: Selection)
    requires ValidChoice(info, eligible, choice)
    ensures r.NothingEligible? <==> forall i :: 0 <= i < |info| ==> !eligible(info[i])
    ensures r.Declined? <==> (exists i :: 0 <= i < |info| && eligible(info[i])) && choice == NoneChoice
    ensures r.Chosen? ==> r.key == choice && choice != NoneChoice
    ensures r.Chosen? ==> exists i :: 0 <= i < |info| && eligible(info[i]) && info[i].key == choice
  {
    var candidates := Where(info, eligible);
    if candidates == [] then
      NothingEligible
    else
      assert candidates[0] in info && eligible(candidates[0]);
      if choice == NoneChoice then Declined
      else
        assert choice in Keys(candidates);
        var j :| 0 <= j < |candidates| && candidates[j].key == choice;
        assert candidates[j] in info && eligible(candidates[j]);
        Chosen(choice)
  }

  /** A feature whose key is literally "None" can never be chosen: picking it
      reads as cancelling. */
  lemma NoneKeyedFeatureUnreachable(info: seq<FeatureInfo>, eligible: FeatureInfo -> bool, choice: string)
    requires ValidChoice(info, eligible, choice)
    ensures SelectFeature(info, eligible, choice) != Chosen(NoneChoice)
  {
  }

  // ----------------------------------------------------------- backend calls

  /** The SDK calls the feature actions end in. The Activation and Shared
      variants pass the feature object looked up with `Features.TryGet`; the
      online variant passes the key. */
  datatype FeatureCall =
    | CheckoutCall(feature: FeatureInfo, amount: int)
    | ReturnCall(feature: FeatureInfo, amount: int)
    | TrackUsageCall(feature: FeatureInfo)
    | CheckoutByKey(key: string, amount: int)
    | ReturnByKey(key: string, amount: int)

  datatype FeatureOutcome =
    | NoEligibleFeatures
    | SelectionDeclined
    | KeyNotFound(key: string)
    | Called(call: FeatureCall)

  /** `Features.TryGet(key, out feature)` on the activation's live feature
      collection, modelled as a map from key to feature. */
  function TryGet(live: map<string, FeatureInfo>, key: string): (r: Option<FeatureInfo>)
    ensures r.Some? <==> key in live
    ensures r.Some? ==> r.value == live[key]
  {
    if key in live then Some(live[key]) else None
  }

  /** Each outcome happens exactly in its own case: nothing eligible; the
      "None" choice; a chosen key missing from the live features (reported
      with that key); and otherwise the backend call. */
  predicate CallsBackendOnlyWhenAllowed(
    info: seq<FeatureInfo>, eligible: FeatureInfo -> bool, choice: string,
    live: map<string, FeatureInfo>, r: FeatureOutcome)
  {
    && (r.Called? <==>
         (exists i :: 0 <= i < |info| && eligible(info[i])) && choice != NoneChoice && choice in live)
    && (r.NoEligibleFeatures? <==> forall i :: 0 <= i < |info| ==> !eligible(info[i]))
    && (r.SelectionDeclined? <==>
         (exists i :: 0 <= i < |info| && eligible(info[i])) && choice == NoneChoice)
    && (r.KeyNotFound? <==>
         (exists i :: 0 <= i < |info| && eligible(info[i])) && choice != NoneChoice && choice !in live)
    && (r.KeyNotFound? ==> r.key == choice)
  }

  /** `CheckoutFeature` (Activation and Shared variants). */
  function CheckoutFeature(info: seq<FeatureInfo>, choice: string, amount: int, live: map<string, FeatureInfo>)
    : (r: FeatureOutcome)
    requires ValidChoice(info, CheckoutEligible, choice)
    ensures CallsBackendOnlyWhenAllowed(info, CheckoutEligible, choice, live, r)
    ensures r.Called? ==> r.call == CheckoutCall(live[choice], amount)
  {
    match SelectFeature(info, CheckoutEligible, choice)
    case NothingEligible => NoEligibleFeatures
    case Declined => SelectionDeclined
    case Chosen(k) =>
      match TryGet(live, k)
      case None => KeyNotFound(k)
      case Some(f) => Called(CheckoutCall(f, amount))
  }

  /** `ReturnFeature` (Activation and Shared variants). */
  function ReturnFeature(info: seq<FeatureInfo>, choice: string, amount: int, live: map<string, FeatureInfo>)
    : (r: FeatureOutcome)
    requires ValidChoice(info, ReturnEligible, choice)
    ensures CallsBackendOnlyWhenAllowed(info, ReturnEligible, choice, live, r)
    ensures r.Called? ==> r.call == ReturnCall(live[choice], amount)
  {
    match SelectFeature(info, ReturnEligible, choice)
    case NothingEligible => NoEligibleFeatures
    case Declined => SelectionDeclined
    case Chosen(k) =>
      match TryGet(live, k)
      case None => KeyNotFound(k)
      case Some(f) => Called(ReturnCall(f, amount))
  }

  /** `TrackBoolFeatureUsage` (Activation and Shared variants): no amount. */
  function TrackBoolFeatureUsage(info: seq<FeatureInfo>, choice: string, live: map<string, FeatureInfo>)
    : (r: FeatureOutcome)
    requires ValidChoice(info, TrackEligible, choice)
    ensures CallsBackendOnlyWhenAllowed(info, TrackEligible, choice, live, r)
    ensures r.Called? ==> r.call == TrackUsageCall(live[choice])
  {
    match SelectFeature(info, TrackEligible, choice)
    case NothingEligible => NoEligibleFeatures
    case Declined => SelectionDeclined
    case Chosen(k) =>
      match TryGet(live, k)
      case None => KeyNotFound(k)
      case Some(f) => Called(TrackUsageCall(f))
  }

  // ------------------------------------------------------------ lease refresh

  /** The lines the `RefreshActivationLease` actions write, without their
      formatting. The Activation and Shared failure line reports the lease
      expiry current after the attempt; the online-only one reports nothing. */
  datatype RefreshLine =
    | CouldNotRefresh
    | CouldNotRefreshExpiring(currentExpiry: Option<int>)
    | SuccessfullyRefreshed(from: Option<int>, to: Option<int>)

  /** `RefreshActivationLease` (Activation and Shared variants). The expiry is
      read once before the SDK call and once after it; the later read is the
      one both lines report. Exactly one line is written, and it announces
      success exactly when the SDK reported a refresh. */
  function RefreshReport(refreshed: bool, previousExpiry: Option<int>, expiryAfter: Option<int>)
    : (r: seq<RefreshLine>)
    ensures |r| == 1
    ensures r[0].SuccessfullyRefreshed? <==> refreshed
    ensures r[0].CouldNotRefreshExpiring? <==> !refreshed
    ensures r[0].SuccessfullyRefreshed? ==> r[0].from == previousExpiry && r[0].to == expiryAfter
    ensures r[0].CouldNotRefreshExpiring? ==> r[0].currentExpiry == expiryAfter
  {
    if !refreshed then [CouldNotRefreshExpiring(expiryAfter)]
    else [SuccessfullyRefreshed(previousExpiry, expiryAfter)]
  }
}

=== FILE: action_record.dfy ===
/** The `ActivationAction` record of the mode-aware front-ends: a name shown in
    the menu, the action body, and the nullable modes in which it is offered.
    All three members are get-only, so a record never changes after
    construction; a datatype value models exactly that. */
module ActionRecord {
  import opened Wrappers
  import opened Sequences
  import opened Licensing

  datatype ActivationAction = ActivationAction(
    name: string,
    action: Command,
    availableInModes: seq<NullableMode>)

  /** `AvailableInModes.Contains(mode)`; `null` is an ordinary member. */
  predicate OfferedIn(a: ActivationAction, mode: NullableMode) {
    mode in a.availableInModes
  }

  /** `Select(x => x.Name)`. */
  function Names(t: seq<ActivationAction>): (r: seq<string>)
    ensures |r| == |t|
    ensures forall i :: 0 <= i < |t| ==> r[i] == t[i].name
  {
    seq(|t|, i requires 0 <= i < |t| => t[i].name)
  }

  /** The filter's predicate, `action => action.AvailableInModes.Contains(mode)`. */
  function OfferedInMode(mode: NullableMode): (p: ActivationAction -> bool) {
    (a: ActivationAction) => OfferedIn(a, mode)
  }

  /** `Where(action => action.AvailableInModes.Contains(mode))`. */
  function InMode(t: seq<ActivationAction>, mode: NullableMode): (r: seq<ActivationAction>)
    ensures |r| <= |t|
    ensures forall i :: 0 <= i < |r| ==> r[i] in t && OfferedIn(r[i], mode)
    ensures forall i :: 0 <= i < |t| && OfferedIn(t[i], mode) ==> t[i] in r
  {
    Where(t, OfferedInMode(mode))
  }

  /** An action survives mode filtering exactly when it is in the table and its
      mode set holds the current mode. */
  lemma InModeExactly(t: seq<ActivationAction>, mode: NullableMode, a: ActivationAction)
    ensures a in InMode(t, mode) <==> a in t && OfferedIn(a, mode)
  {
    var r := InMode(t, mode);
    if a in t && OfferedIn(a, mode) {
      var i :| 0 <= i < |t| && t[i] == a;
      assert OfferedIn(t[i], mode);
    }
    if a in r {
      var i :| 0 <= i < |r| && r[i] == a;
      assert r[i] in t;
    }
  }

  /** Every action offered in the mode has its label on the filtered list. */
  lemma OfferedNamesShown(t: seq<ActivationAction>, mode: NullableMode)
    ensures forall a :: a in t && OfferedIn(a, mode) ==> a.name in Names(InMode(t, mode))
  {
    forall a | a in t && OfferedIn(a, mode)
      ensures a.name in Names(InMode(t, mode))
    {
      InModeExactly(t, mode, a);
      var s := InMode(t, mode);
      var k :| 0 <= k < |s| && s[k] == a;
      assert Names(s)[k] == a.name;
    }
  }

  /** The menu of the mode-aware loops: the labels of the entries offered in
      the mode, in table order, then "Quit". Every label shown belongs to an
      offered entry, and every offered entry's label is shown. */
  function MenuOf(t: seq<ActivationAction>, mode: NullableMode): (r: seq<string>)
    ensures |r| > 0 && r[|r| - 1] == QuitAction
    ensures r[..|r| - 1] == Names(InMode(t, mode))
    ensures forall i :: 0 <= i < |r| - 1 ==>
      exists a :: a in t && OfferedIn(a, mode) && a.name == r[i]
    ensures forall a :: a in t && OfferedIn(a, mode) ==> a.name in r[..|r| - 1]
  {
    var shown := InMode(t, mode);
    assert forall i :: 0 <= i < |shown| ==> shown[i] in t && OfferedIn(shown[i], mode);
    OfferedNamesShown(t, mode);
    var r := Names(shown) + [QuitAction];
    assert r[..|r| - 1] == Names(shown);
    r
  }

  /** One step of the filter, for computing a concrete table's menu entry by entry. */
  lemma InModeStep(t: seq<ActivationAction>, k: nat, mode: NullableMode)
    requires k < |t|
    ensures InMode(t[k..], mode) ==
      (if OfferedIn(t[k], mode) then [t[k]] else []) + InMode(t[k + 1..], mode)
  {
    assert t[k..][0] == t[k];
    assert t[k..][1..] == t[k + 1..];
  }

  /** A menu in which only the first and the last entries are offered. */
  lemma InModeFirstAndLast(t: seq<ActivationAction>, mode: NullableMode)
    requires |t| >= 2
    requires OfferedIn(t[0], mode) && OfferedIn(t[|t| - 1], mode)
    requires forall i :: 0 < i < |t| - 1 ==> !OfferedIn(t[i], mode)
    ensures InMode(t, mode) == [t[0], t[|t| - 1]]
  {
    var n := |t|;
    var mid := t[1..n - 1];
    assert t == [t[0]] + mid + [t[n - 1]];
    WhereAppend([t[0]] + mid, [t[n - 1]], OfferedInMode(mode));
    WhereAppend([t[0]], mid, OfferedInMode(mode));
    WhereDropsAll(mid, OfferedInMode(mode));
  }

  /** `First(x => x.Name == name)`: `None` when `First` would throw. */
  function Resolve(t: seq<ActivationAction>, name: string): (r: Option<ActivationAction>)
    ensures r.None? <==> name !in Names(t)
    ensures r.Some? ==> r.value in t && r.value.name == name
    ensures r.Some? ==>
      exists i :: 0 <= i < |t| && t[i] == r.value && forall j :: 0 <= j < i ==> t[j].name != name
  {
    match FirstIndex(Names(t), name)
    case None => None
    case Some(i) => Some(t[i])
  }

  /** The key fact of the mode-aware menus: when names are unique in the
      unfiltered table, resolving a name that was displayed under `mode` always
      succeeds and yields the very action that was displayed, so the action
      that runs is one offered in the mode the menu was built for. */
  lemma ResolveDisplayed(t: seq<ActivationAction>, mode: NullableMode, name: string)
    requires Distinct(Names(t))
    requires name in Names(InMode(t, mode))
    ensures Resolve(t, name).Some?
    ensures Resolve(t, name).value in InMode(t, mode)
    ensures OfferedIn(Resolve(t, name).value, mode)
  {
    var shown := InMode(t, mode);
    var j :| 0 <= j < |shown| && Names(shown)[j] == name;
    var a := shown[j];
    InModeExactly(t, mode, a);
    var k :| 0 <= k < |t| && t[k] == a;
    assert Names(t)[k] == name;
    FirstIndexOfDistinct(Names(t), name, k);
  }

  /** A label chosen from the menu other than "Quit" is one of the filtered
      labels, so it resolves to the displayed action. */
  lemma MenuChoiceResolves(t: seq<ActivationAction>, mode: NullableMode, name: string)
    requires Distinct(Names(t))
    requires name in MenuOf(t, mode) && name != QuitAction
    ensures Resolve(t, name).Some?
    ensures Resolve(t, name).value in InMode(t, mode)
    ensures Resolve(t, name).value.name == name
  {
    var r := MenuOf(t, mode);
    var k :| 0 <= k < |r| && r[k] == name;
    assert k < |r| - 1;
    assert name == r[..|r| - 1][k];
    ResolveDisplayed(t, mode, name);
  }
}

=== FILE: activation_actions.dfy ===
/** The action table of the Activation front-end: every action with its menu
    label and the nullable modes it is offered in, and the per-state ordered
    lists. The action bodies' decision logic lives in `ActionBodies`. */
module ActivationActions {
  import opened Wrappers
  import opened Sequences
  import opened Licensing
  import opened ActionRecord

  const ActivateWithCode := ActivationAction(
    "Activate license with code", Command.ActivateWithCode, [None])
  const ActivateWithToken := ActivationAction(
    "Activate license with OpenID token", Command.ActivateWithToken, [None])
  const GenerateOfflineActivationRequest := ActivationAction(
    "Generate offline activation request (for End User Portal)",
    Command.GenerateOfflineActivationRequest, [None])
  const ActivateOffline := ActivationAction(
    "Activate offline (with activation response from End User Portal)", Command.ActivateOffline, [None])
  const ShowActivationInfo := ActivationAction(
    "Show activation info", Command.ShowActivationInfo, [Some(Online), Some(Offline), None])
  const PullActivationStateFromServer := ActivationAction(
    "Pull activation state from the server", Command.PullActivationStateFromServer, [Some(Online)])
  const PullActivationStateFromLocalStorage := ActivationAction(
    "Pull activation state from the local storage", Command.PullActivationStateFromLocalStorage,
    [Some(Online), Some(Offline), None])
  const RefreshActivationLease := ActivationAction(
    "Refresh activation lease", Command.RefreshActivationLease, [Some(Online)])
  const RefreshOfflineActivationLease := ActivationAction(
    "Refresh offline activation lease (with refresh token from End User Portal)",
    Command.RefreshOfflineActivationLease, [Some(Offline)])
  const CheckoutFeature := ActivationAction(
    "Checkout advanced feature", Command.CheckoutFeature, [Some(Online)])
  const ReturnFeature := ActivationAction(
    "Return element-pool feature", Command.ReturnFeature, [Some(Online)])
  const TrackBoolFeatureUsage := ActivationAction(
    "Track usage of a bool feature", Command.TrackBoolFeatureUsage, [Some(Online)])
  const GetActivationEntitlement := ActivationAction(
    "Get entitlement associated with the activation", Command.GetActivationEntitlement,
    [Some(Online), Some(Offline)])
  const Deactivate := ActivationAction(
    "Deactivate license", Command.Deactivate, [Some(Online)])
  const DeactivateOffline := ActivationAction(
    "Deactivate offline license", Command.DeactivateOffline, [Some(Offline)])

  /** The `AvailableActions` dictionary: the ordered actions of each
      activation state. It has an entry for all four states, so the lookup is
      a total function here. */
  function AvailableActions(s: ActivationState): (r: seq<ActivationAction>)
    ensures |r| > 0 && r[0] == ShowActivationInfo
  {
    match s
    case Active => [
      ShowActivationInfo, PullActivationStateFromServer, PullActivationStateFromLocalStorage,
      CheckoutFeature, ReturnFeature, TrackBoolFeatureUsage, RefreshActivationLease,
      RefreshOfflineActivationLease, Deactivate, DeactivateOffline, GetActivationEntitlement]
    case LeaseExpired => [
      ShowActivationInfo, PullActivationStateFromServer, PullActivationStateFromLocalStorage,
      RefreshActivationLease, RefreshOfflineActivationLease, Deactivate, DeactivateOffline,
      GetActivationEntitlement]
    case NotActivated => [
      ShowActivationInfo, PullActivationStateFromLocalStorage,
      ActivateWithCode, ActivateWithToken, GenerateOfflineActivationRequest, ActivateOffline]
    case EntitlementNotActive => [
      ShowActivationInfo, PullActivationStateFromServer, PullActivationStateFromLocalStorage,
      GetActivationEntitlement,
      ActivateWithCode, ActivateWithToken, GenerateOfflineActivationRequest, ActivateOffline]
  }

  /** The commands that establish an activation. */
  predicate IsActivationCommand(c: Command) {
    c in {Command.ActivateWithCode, Command.ActivateWithToken,
          Command.GenerateOfflineActivationRequest, Command.ActivateOffline}
  }

  /** The intended mode set of each command, stated independently of the table:
      activation commands before any activation only; backend calls online
      only; offline token exchanges offline only. */
  function IntendedModes(c: Command): (r: set<NullableMode>) {
    if IsActivationCommand(c) then {None}
    else if c in {Command.ShowActivationInfo, Command.PullActivationStateFromLocalStorage} then
      {Some(Online), Some(Offline), None}
    else if c in {Command.RefreshOfflineActivationLease, Command.DeactivateOffline} then {Some(Offline)}
    else if c == Command.GetActivationEntitlement then {Some(Online), Some(Offline)}
    else {Some(Online)}
  }

  /** Every state offers at least the activation info. */
  lemma EveryStateShowsInfo(s: ActivationState)
    ensures |AvailableActions(s)| > 0 && AvailableActions(s)[0] == ShowActivationInfo
  {
  }

  /** Every entry of every list carries exactly its intended mode set. */
  lemma ModeSetsAsIntended(s: ActivationState, a: ActivationAction, m: NullableMode)
    requires a in AvailableActions(s)
    ensures OfferedIn(a, m) <==> m in IntendedModes(a.action)
  {
    EntriesAsIntended();
  }

  /** An entry is offered in exactly the modes its command is meant for. */
  ghost predicate AsIntended(a: ActivationAction) {
    forall m :: OfferedIn(a, m) <==> m in IntendedModes(a.action)
  }

  /** Each entry of the table, taken on its own. */
  lemma EntriesAsIntended()
    ensures AsIntended(ActivateWithCode)
    ensures AsIntended(ActivateWithToken)
    ensures AsIntended(GenerateOfflineActivationRequest)
    ensures AsIntended(ActivateOffline)
    ensures AsIntended(ShowActivationInfo)
    ensures AsIntended(PullActivationStateFromServer)
    ensures AsIntended(PullActivationStateFromLocalStorage)
    ensures AsIntended(RefreshActivationLease)
    ensures AsIntended(RefreshOfflineActivationLease)
    ensures AsIntended(CheckoutFeature)
    ensures AsIntended(ReturnFeature)
    ensures AsIntended(TrackBoolFeatureUsage)
    ensures AsIntended(GetActivationEntitlement)
    ensures AsIntended(Deactivate)
    ensures AsIntended(DeactivateOffline)
  {
    EntryAsIntended(ActivateWithCode);
    EntryAsIntended(ActivateWithToken);
    EntryAsIntended(GenerateOfflineActivationRequest);
    EntryAsIntended(ActivateOffline);
    EntryAsIntended(ShowActivationInfo);
    EntryAsIntended(PullActivationStateFromServer);
    EntryAsIntended(PullActivationStateFromLocalStorage);
    EntryAsIntended(RefreshActivationLease);
    EntryAsIntended(RefreshOfflineActivationLease);
    EntryAsIntended(CheckoutFeature);
    EntryAsIntended(ReturnFeature);
    EntryAsIntended(TrackBoolFeatureUsage);
    EntryAsIntended(GetActivationEntitlement);
    EntryAsIntended(Deactivate);
    EntryAsIntended(DeactivateOffline);
  }

  lemma EntryAsIntended(a: ActivationAction)
    requires a in {ActivateWithCode, ActivateWithToken, GenerateOfflineActivationRequest,
                   ActivateOffline, ShowActivationInfo, PullActivationStateFromServer,
                   PullActivationStateFromLocalStorage, RefreshActivationLease,
                   RefreshOfflineActivationLease, CheckoutFeature, ReturnFeature,
                   TrackBoolFeatureUsage, GetActivationEntitlement, Deactivate, DeactivateOffline}
    ensures AsIntended(a)
  {
    forall m | true
      ensures OfferedIn(a, m) <==> m in IntendedModes(a.action)
    {
      match m
      case None =>
      case Some(Online) =>
      case Some(Offline) =>
    }
  }

  /** No label repeats within a state's list, so first-match resolution by name
      is unambiguous. */
  lemma NamesDistinct(s: ActivationState)
    ensures Distinct(Names(AvailableActions(s)))
  {
  }

  /** The shape of the Active list: eleven entries, ending with the two
      deactivations and the entitlement lookup. */
  lemma ActiveShape()
    ensures |AvailableActions(Active)| == 11
    ensures AvailableActions(Active)[8..] == [Deactivate, DeactivateOffline, GetActivationEntitlement]
  {
  }

  /** Once a mode is set, none of the four activation commands survives mode
      filtering, in either state that lists them. */
  lemma ActivationCommandsHiddenOnceModeSet(s: ActivationState, m: ActivationMode, a: ActivationAction)
    requires a in InMode(AvailableActions(s), Some(m))
    ensures !IsActivationCommand(a.action)
  {
    InModeExactly(AvailableActions(s), Some(m), a);
    ModeSetsAsIntended(s, a, Some(m));
  }

  /** Before any activation (no mode), the NotActivated menu offers activation
      with a code but no online-only command such as checkout. */
  lemma NotActivatedWithoutMode()
    ensures ActivateWithCode in InMode(AvailableActions(NotActivated), None)
    ensures forall a :: a in InMode(AvailableActions(NotActivated), None) ==> None in IntendedModes(a.action)
  {
    var t := AvailableActions(NotActivated);
    assert ActivateWithCode in t && OfferedIn(ActivateWithCode, None);
    InModeExactly(t, None, ActivateWithCode);
    forall a | a in InMode(t, None)
      ensures None in IntendedModes(a.action)
    {
      InModeExactly(t, None, a);
      ModeSetsAsIntended(NotActivated, a, None);
    }
  }

  /** The NotActivated menu under a set mode, in order. */
  lemma NotActivatedOnceModeSet(m: ActivationMode)
    ensures Names(InMode(AvailableActions(NotActivated), Some(m))) ==
      ["Show activation info", "Pull activation state from the local storage"]
  {
    var t := AvailableActions(NotActivated);
    NotActivatedActivationsHidden(m);
    InModeStep(t, 1, Some(m));
    InModeStep(t, 0, Some(m));
    assert t[0..] == t;
    assert InMode(t, Some(m)) == [ShowActivationInfo, PullActivationStateFromLocalStorage];
  }

  /** The four activation entries that close the NotActivated list all drop out
      once a mode is set. */
  lemma NotActivatedActivationsHidden(m: ActivationMode)
    ensures InMode(AvailableActions(NotActivated)[2..], Some(m)) == []
  {
    var t := AvailableActions(NotActivated);
    assert t[6..] == [];
    InModeStep(t, 5, Some(m));
    InModeStep(t, 4, Some(m));
    InModeStep(t, 3, Some(m));
    InModeStep(t, 2, Some(m));
  }
}

=== FILE: activation_program.dfy ===
/** The Activation front-end's start-up choices and its mode-filtered menu
    loop. */
module ActivationProgram {
  import opened Wrappers
  import opened Sequences
  import opened Licensing
  import opened ActionRecord
  import opened Session
  import AA = ActivationActions

  // ----------------------------------------------------------------- start-up

  /** What the host configures from the `UseCoreLibrary` setting. */
  datatype Configuration = Configuration(
    nativeResolverRegistered: bool,
    onlineSupport: bool,
    offlineSupport: bool)

  /** Online support is always configured; the native-library resolver and the
      offline support that needs it only with `UseCoreLibrary`. */
  function Configure(useCoreLibrary: bool): (c: Configuration)
    ensures c.onlineSupport
    ensures c.offlineSupport ==> c.nativeResolverRegistered
    ensures c.offlineSupport <==> useCoreLibrary
    ensures !useCoreLibrary ==> !c.nativeResolverRegistered
  {
    Configuration(useCoreLibrary, true, useCoreLibrary)
  }

  datatype SeatIdSource = DeviceFingerprint | PromptedSeatId

  /** The seat-ID callback: whether it asks for confirmation, and where the
      seat ID comes from. `&&` short-circuits, so the confirmation prompt is
      shown only when the core library is in use. */
  datatype SeatIdDecision = SeatIdDecision(askedConfirmation: bool, source: SeatIdSource)

  function SeatIdProvider(useCoreLibrary: bool, userConfirms: bool): (d: SeatIdDecision)
    ensures d.askedConfirmation <==> useCoreLibrary
    ensures d.source == DeviceFingerprint <==> useCoreLibrary && userConfirms
  {
    if useCoreLibrary then
      SeatIdDecision(true, if userConfirms then DeviceFingerprint else PromptedSeatId)
    else SeatIdDecision(false, PromptedSeatId)
  }

  // -------------------------------------------------------------------- loop

  /** The menu: the labels of the state's actions offered in the current mode,
      in table order, then "Quit". */
  function Menu(snapshot: Snapshot): (r: seq<string>)
    ensures |r| > 0 && r[|r| - 1] == QuitAction
    ensures r[..|r| - 1] == Names(InMode(AA.AvailableActions(snapshot.state), snapshot.mode))
    ensures forall i :: 0 <= i < |r| - 1 ==>
      exists a :: a in AA.AvailableActions(snapshot.state) && OfferedIn(a, snapshot.mode) && a.name == r[i]
    ensures forall a :: a in AA.AvailableActions(snapshot.state) && OfferedIn(a, snapshot.mode) ==>
      a.name in r[..|r| - 1]
  {
    MenuOf(AA.AvailableActions(snapshot.state), snapshot.mode)
  }

  /** One iteration: "Quit" runs nothing; any other label is resolved by first
      match in the unfiltered list of the state read after the prompt. */
  function Step(r: Round): (o: StepOutcome)
    ensures o.Quit? <==> r.choice == QuitAction
    ensures o.Ran? ==> exists a :: a in AA.AvailableActions(r.after) && a.name == r.choice && a.action == o.action
    ensures o.NoMatch? <==> r.choice != QuitAction && r.choice !in Names(AA.AvailableActions(r.after))
  {
    if r.choice == QuitAction then Quit
    else
      match Resolve(AA.AvailableActions(r.after), r.choice)
      case None => NoMatch
      case Some(a) => Ran(a.action)
  }

  /** When the state has not changed since the menu was built, a displayed
      choice other than "Quit" always resolves, and to the displayed action,
      which is offered in the menu's mode. */
  lemma StepRunsDisplayedAction(r: Round)
    requires r.choice in Menu(r.before) && r.choice != QuitAction
    requires r.after == r.before.state
    ensures Step(r).Ran?
    ensures exists a ::
      (a in InMode(AA.AvailableActions(r.before.state), r.before.mode) &&
       a.name == r.choice && a.action == Step(r).action)
  {
    var t := AA.AvailableActions(r.before.state);
    AA.NamesDistinct(r.before.state);
    MenuChoiceResolves(t, r.before.mode, r.choice);
  }

  /** If the state changes between the two reads, a displayed label may be
      missing from the new state's list, and `First` throws: a checkout chosen
      while Active cannot be resolved once the lease has expired. */
  lemma StaleMenuCanThrow()
    ensures "Checkout advanced feature" in Menu(Snapshot(Active, Some(Online)))
    ensures Step(Round(Snapshot(Active, Some(Online)), "Checkout advanced feature", LeaseExpired)) == NoMatch
  {
    CheckoutShownWhileActiveOnline();
    CheckoutNotListedWhenExpired();
    var r := Round(Snapshot(Active, Some(Online)), "Checkout advanced feature", LeaseExpired);
    assert Step(r).NoMatch?;
  }

  lemma CheckoutNotListedWhenExpired()
    ensures AA.CheckoutFeature.name !in Names(AA.AvailableActions(LeaseExpired))
  {
  }

  lemma CheckoutShownWhileActiveOnline()
    ensures AA.CheckoutFeature.name in Menu(Snapshot(Active, Some(Online)))
  {
    var t := AA.AvailableActions(Active);
    assert t[3] == AA.CheckoutFeature;
    InModeExactly(t, Some(Online), AA.CheckoutFeature);
    var shown := InMode(t, Some(Online));
    var j :| 0 <= j < |shown| && shown[j] == AA.CheckoutFeature;
    assert Names(shown)[j] == AA.CheckoutFeature.name;
  }

  /** The whole session: every iteration that does not quit runs exactly one
      action and loops; a Quit ends the session; in a session whose state never
      changes behind the menu's back, no lookup ever fails. */
  method RunSession(rounds: seq<Round>) returns (outcomes: seq<StepOutcome>)
    requires forall i :: 0 <= i < |rounds| ==> rounds[i].choice in Menu(rounds[i].before)
    ensures |outcomes| <= |rounds|
    ensures forall i :: 0 <= i < |outcomes| ==> outcomes[i] == Step(rounds[i])
    ensures forall i :: 0 <= i < |outcomes| - 1 ==> outcomes[i].Ran?
    ensures |outcomes| < |rounds| ==> |outcomes| > 0 && !outcomes[|outcomes| - 1].Ran?
    ensures forall i :: 0 <= i < |outcomes| ==> outcomes[i].NoMatch? ==> rounds[i].after != rounds[i].before.state
    ensures (forall i :: 0 <= i < |rounds| ==> rounds[i].after == rounds[i].before.state) ==>
      forall i :: 0 <= i < |outcomes| ==> !outcomes[i].NoMatch?
  {
    outcomes := RunLoop(rounds, Step);
    forall i | 0 <= i < |outcomes| && rounds[i].after == rounds[i].before.state
      ensures !outcomes[i].NoMatch?
    {
      if rounds[i].choice != QuitAction {
        StepRunsDisplayedAction(rounds[i]);
      }
    }
  }
}

=== FILE: core_lib_resolver.dfy ===
/** The import resolver that the Activation front-end registers when it runs on
    the native core library: it maps the library name the SDK imports to a
    platform-specific file below the placeholder directory, or falls back to the
    runtime's default resolution. Loading the file is an effect of the runtime;
    the model returns the path it would load. */
module CoreLibResolver {
  /** The processor architectures the runtime reports (`Other` stands for the
      ones the resolver does not single out). */
  datatype Architecture = X86 | X64 | Arm | Arm64 | Other

  /** What `RuntimeInformation` says about the host: one flag per platform
      query, and the OS architecture. */
  datatype Platform = Platform(osx: bool, windows: bool, linux: bool, freeBsd: bool, arch: Architecture)

  /** `IntPtr.Zero` (let the runtime resolve it) or the handle of a loaded file. */
  datatype Resolution = Fallback | Load(path: string)

  const CoreLibName := "Zentitle2Core"
  const CoreLibPath := "Zentitle2CoreLibPlaceholder"

  predicate StartsWith(s: string, prefix: string) {
    |prefix| <= |s| && s[..|prefix|] == prefix
  }

  predicate EndsWith(s: string, suffix: string) {
    |suffix| <= |s| && s[|s| - |suffix|..] == suffix
  }

  /** The file names the core library has by each platform's convention: the
      bare name with `.dll` on Windows, `lib` + name with `.dylib` on macOS and
      `.so` on Linux. */
  const WindowsFile := CoreLibName + ".dll"
  const MacOsFile := "lib" + CoreLibName + ".dylib"
  const LinuxFile := "lib" + CoreLibName + ".so"

  /** A file of one platform build below the placeholder directory. */
  function LibraryPath(folder: string, file: string): (r: string)
    ensures |r| == |CoreLibPath| + |folder| + |file| + 2
    ensures r[..|CoreLibPath| + 1] == CoreLibPath + "/"
    ensures r[|CoreLibPath| + 1..|r| - |file| - 1] == folder
    ensures r[|r| - |file| - 1..] == "/" + file
  {
    CoreLibPath + "/" + folder + "/" + file
  }

  lemma LibraryPathParts(folder: string, file: string)
    ensures StartsWith(LibraryPath(folder, file), CoreLibPath + "/")
    ensures EndsWith(LibraryPath(folder, file), "/" + file)
  {
    var path := LibraryPath(folder, file);
    assert path == (CoreLibPath + "/") + (folder + "/" + file);
    assert path == (CoreLibPath + "/" + folder) + ("/" + file);
  }

  /** `Zentitle2CoreLibResolver.DllImportResolver`. */
  function DllImportResolver(libraryName: string, p: Platform): (r: Resolution)
    ensures r.Load? <==> libraryName == CoreLibName && (p.osx || p.windows || p.linux || p.freeBsd)
    ensures r.Load? ==> StartsWith(r.path, CoreLibPath + "/")
    ensures r.Load? && p.osx ==> EndsWith(r.path, "/" + MacOsFile)
    ensures r.Load? && !p.osx && p.windows ==> EndsWith(r.path, "/" + WindowsFile)
    ensures r.Load? && !p.osx && !p.windows ==> EndsWith(r.path, "/" + LinuxFile)
    ensures libraryName == CoreLibName && p.osx && (p.arch == X64 || p.arch == X86) ==>
      r == Load(LibraryPath("MacOS_x86_64", MacOsFile))
    ensures libraryName == CoreLibName && p.osx && !(p.arch == X64 || p.arch == X86) ==>
      r == Load(LibraryPath("MacOS_arm64", MacOsFile))
    ensures libraryName == CoreLibName && !p.osx && p.windows ==>
      r == Load(LibraryPath("Windows_x86_64", WindowsFile))
    ensures libraryName == CoreLibName && !p.osx && !p.windows && (p.linux || p.freeBsd) ==>
      r == Load(LibraryPath("Linux_x86_64", LinuxFile))
  {
    if libraryName != CoreLibName then Fallback
    else if p.osx then
      if p.arch == X64 || p.arch == X86 then
        LibraryPathParts("MacOS_x86_64", MacOsFile);
        Load(LibraryPath("MacOS_x86_64", MacOsFile))
      else
        LibraryPathParts("MacOS_arm64", MacOsFile);
        Load(LibraryPath("MacOS_arm64", MacOsFile))
    else if p.windows then
      LibraryPathParts("Windows_x86_64", WindowsFile);
      Load(LibraryPath("Windows_x86_64", WindowsFile))
    else if p.linux || p.freeBsd then
      LibraryPathParts("Linux_x86_64", LinuxFile);
      Load(LibraryPath("Linux_x86_64", LinuxFile))
    else Fallback
  }

  /** Only macOS has per-architecture builds: an Intel Mac (64- or 32-bit)
      loads the x86_64 build and every other Mac the arm64 build. */
  lemma MacOsChoosesByArchitecture(p: Platform)
    requires p.osx
    ensures DllImportResolver(CoreLibName, p) ==
      Load(LibraryPath(if p.arch in {X64, X86} then "MacOS_x86_64" else "MacOS_arm64", MacOsFile))
  {
  }

  /** Off macOS the architecture is ignored: the Windows and Linux builds are
      x86_64 whatever the host reports. */
  lemma ArchitectureIgnoredOffMacOs(libraryName: string, p: Platform, a: Architecture)
    requires !p.osx
    ensures DllImportResolver(libraryName, p) == DllImportResolver(libraryName, p.(arch := a))
  {
  }

  /** The platform queries are tried in a fixed order, macOS first and Windows
      before Linux and FreeBSD, so a host answering yes to several gets the
      first one's build. */
  lemma FirstPlatformWins(p: Platform)
    requires p.windows && (p.linux || p.freeBsd)
    ensures !p.osx ==> EndsWith(DllImportResolver(CoreLibName, p).path, ".dll")
    ensures p.osx ==> EndsWith(DllImportResolver(CoreLibName, p).path, ".dylib")
  {
  }

  /** FreeBSD has no build of its own and shares the Linux one. */
  lemma FreeBsdSharesLinuxBuild(p: Platform)
    requires !p.osx && !p.windows
    ensures DllImportResolver(CoreLibName, p.(freeBsd := true)) ==
            DllImportResolver(CoreLibName, p.(linux := true))
  {
  }
}

=== FILE: licensing.dfy ===
/** The vocabulary the console front-ends share with the licensing SDK: the
    activation state and mode they read, the feature records they filter, and
    the named commands whose bodies are opaque SDK calls. */
module Licensing {
  import opened Wrappers

  /** The four states the SDK reports for an activation. */
  datatype ActivationState = Active | LeaseExpired | NotActivated | EntitlementNotActive

  /** How the activation was established. The SDK reports `ActivationMode?`:
      `None` means no activation has happened yet. */
  datatype ActivationMode = Online | Offline

  type NullableMode = Option<ActivationMode>

  /** The `Info.Mode` and `State` read to build one menu. */
  datatype Snapshot = Snapshot(state: ActivationState, mode: NullableMode)

  datatype FeatureType = Bool | Consumption | ElementPool

  /** A feature as listed in `Info.Features`; the counters are `int?`. */
  datatype FeatureInfo = FeatureInfo(
    key: string,
    featureType: FeatureType,
    active: Option<int>,
    available: Option<int>,
    total: Option<int>)

  /** C#'s lifted `x > k` on an `int?`: false when `x` is null. */
  predicate GreaterThan(x: Option<int>, k: int) {
    x.Some? && x.value > k
  }

  /** The commands of the console menus. Each names the opaque body of one
      action; what the body does to the activation belongs to the SDK. */
  datatype Command =
    | ActivateWithCode
    | ActivateWithToken
    | GenerateOfflineActivationRequest
    | ActivateOffline
    | ShowActivationInfo
    | PullActivationStateFromServer
    | PullActivationStateFromLocalStorage
    | RefreshActivationLease
    | RefreshOfflineActivationLease
    | CheckoutFeature
    | ReturnFeature
    | TrackBoolFeatureUsage
    | GetActivationEntitlement
    | Deactivate
    | DeactivateOffline
    | AcquireLock

  /** The label of the terminal menu entry every loop appends. */
  const QuitAction: string := "Quit"
}

=== FILE: online_action_record.dfy ===
/** The `ActivationAction` record of the online-only front-end: a name and an
    action body, both get-only. It has no mode set, so nothing in this variant
    can be filtered by mode: every entry of a state's list is always shown. */
module OnlineActionRecord {
  import opened Wrappers
  import opened Sequences
  import opened Licensing

  datatype OnlineAction = OnlineAction(name: string, action: Command)

  /** `Select(x => x.Name)`. */
  function Names(t: seq<OnlineAction>): (r: seq<string>)
    ensures |r| == |t|
    ensures forall i :: 0 <= i < |t| ==> r[i] == t[i].name
  {
    seq(|t|, i requires 0 <= i < |t| => t[i].name)
  }

  /** `First(x => x.Name == name)`: `None` when `First` would throw. */
  function Resolve(t: seq<OnlineAction>, name: string): (r: Option<OnlineAction>)
    ensures r.None? <==> name !in Names(t)
    ensures r.Some? ==> r.value in t && r.value.name == name
    ensures r.Some? ==>
      exists i :: 0 <= i < |t| && t[i] == r.value && forall j :: 0 <= j < i ==> t[j].name != name
  {
    match FirstIndex(Names(t), name)
    case None => None
    case Some(i) => Some(t[i])
  }

  /** With unique names, resolving the name at position `k` of the displayed
      list yields the entry at position `k`. */
  lemma ResolveDisplayed(t: seq<OnlineAction>, k: nat)
    requires Distinct(Names(t))
    requires k < |t|
    ensures Resolve(t, t[k].name) == Some(t[k])
  {
    FirstIndexOfDistinct(Names(t), t[k].name, k);
  }
}

=== FILE: online_actions.dfy ===
/** The action table of the online-only front-end. Its record has no mode set,
    so each state's list is shown whole. Its checkout filter and its feature
    calls differ from the other front-ends: only a positive `Available`
    qualifies, and checkout and return go to the SDK by key, without a
    `TryGet` lookup. */
module OnlineActions {
  import opened Wrappers
  import opened Sequences
  import opened Licensing
  import opened OnlineActionRecord
  import AB = ActionBodies

  const ActivateWithCode := OnlineAction("Activate license with code", Command.ActivateWithCode)
  const ActivateWithToken := OnlineAction("Activate license with OpenID token", Command.ActivateWithToken)
  const ShowActivationInfo := OnlineAction("Show activation info", Command.ShowActivationInfo)
  const PullActivationStateFromServer := OnlineAction(
    "Pull activation state from the server", Command.PullActivationStateFromServer)
  const PullActivationStateFromLocalStorage := OnlineAction(
    "Pull activation state from the local storage", Command.PullActivationStateFromLocalStorage)
  const RefreshActivationLease := OnlineAction("Refresh activation lease", Command.RefreshActivationLease)
  const CheckoutFeature := OnlineAction(
    "Checkout consumption/element-pool feature", Command.CheckoutFeature)
  const ReturnFeature := OnlineAction("Return element-pool feature", Command.ReturnFeature)
  const GetActivationEntitlement := OnlineAction(
    "Get entitlement associated with the activation", Command.GetActivationEntitlement)
  const Deactivate := OnlineAction("Deactivate license", Command.Deactivate)

  /** The `AvailableActions` dictionary: the ordered actions of each
      activation state (it has an entry for every state). */
  function AvailableActions(s: ActivationState): (r: seq<OnlineAction>)
    ensures |r| > 0 && r[0] == ShowActivationInfo
  {
    match s
    case Active => [
      ShowActivationInfo, PullActivationStateFromServer, PullActivationStateFromLocalStorage,
      CheckoutFeature, ReturnFeature, RefreshActivationLease,
      Deactivate, GetActivationEntitlement]
    case LeaseExpired => [
      ShowActivationInfo, PullActivationStateFromServer, PullActivationStateFromLocalStorage,
      RefreshActivationLease, Deactivate, GetActivationEntitlement]
    case NotActivated => [
      ShowActivationInfo, PullActivationStateFromLocalStorage, ActivateWithCode, ActivateWithToken]
    case EntitlementNotActive => [
      ShowActivationInfo, PullActivationStateFromServer, PullActivationStateFromLocalStorage,
      ActivateWithCode, ActivateWithToken, GetActivationEntitlement]
  }

  /** No label repeats within a state's list. */
  lemma NamesDistinct(s: ActivationState)
    ensures Distinct(Names(AvailableActions(s)))
  {
  }

  /** Activation commands are listed exactly in the two states without a
      usable activation, and feature commands only in the Active state. */
  lemma CommandsByState(s: ActivationState, a: OnlineAction)
    requires a in AvailableActions(s)
    ensures a.action in {Command.ActivateWithCode, Command.ActivateWithToken} ==>
      s in {NotActivated, EntitlementNotActive}
    ensures a.action in {Command.CheckoutFeature, Command.ReturnFeature} ==> s == Active
    ensures s == NotActivated ==> a.action !in {Command.Deactivate, Command.RefreshActivationLease}
  {
  }

  // ------------------------------------------------------- feature actions

  /** Checkout eligibility here: `Available > 0`, nothing else. */
  predicate CheckoutEligible(f: FeatureInfo) {
    GreaterThan(f.available, 0)
  }

  /** The online filter is the other front-ends' filter minus exactly the
      non-Bool features whose availability is unset. */
  lemma CheckoutNarrowerThanShared(f: FeatureInfo)
    ensures CheckoutEligible(f) ==> AB.CheckoutEligible(f)
    ensures AB.CheckoutEligible(f) && !CheckoutEligible(f) <==> f.featureType != Bool && f.available.None?
  {
  }

  /** `CheckoutFeature`: the SDK is called by key exactly when something is
      eligible and the choice is not "None". */
  function CheckoutFeatureByKey(info: seq<FeatureInfo>, choice: string, amount: int): (r: AB.FeatureOutcome)
    requires AB.ValidChoice(info, CheckoutEligible, choice)
    ensures r.Called? <==> (exists i :: 0 <= i < |info| && CheckoutEligible(info[i])) && choice != AB.NoneChoice
    ensures r.NoEligibleFeatures? <==> forall i :: 0 <= i < |info| ==> !CheckoutEligible(info[i])
    ensures !r.KeyNotFound?
    ensures r.Called? ==> r.call == AB.CheckoutByKey(choice, amount)
    ensures r.Called? ==> exists i :: 0 <= i < |info| && CheckoutEligible(info[i]) && info[i].key == choice
  {
    match AB.SelectFeature(info, CheckoutEligible, choice)
    case NothingEligible => AB.NoEligibleFeatures
    case Declined => AB.SelectionDeclined
    case Chosen(k) => AB.Called(AB.CheckoutByKey(k, amount))
  }

  /** `ReturnFeature`: the same eligibility as the other front-ends, but the SDK
      is called by key. */
  function ReturnFeatureByKey(info: seq<FeatureInfo>, choice: string, amount: int): (r: AB.FeatureOutcome)
    requires AB.ValidChoice(info, AB.ReturnEligible, choice)
    ensures r.Called? <==> (exists i :: 0 <= i < |info| && AB.ReturnEligible(info[i])) && choice != AB.NoneChoice
    ensures r.NoEligibleFeatures? <==> forall i :: 0 <= i < |info| ==> !AB.ReturnEligible(info[i])
    ensures !r.KeyNotFound?
    ensures r.Called? ==> r.call == AB.ReturnByKey(choice, amount)
    ensures r.Called? ==> exists i :: 0 <= i < |info| && AB.ReturnEligible(info[i]) && info[i].key == choice
  {
    match AB.SelectFeature(info, AB.ReturnEligible, choice)
    case NothingEligible => AB.NoEligibleFeatures
    case Declined => AB.SelectionDeclined
    case Chosen(k) => AB.Called(AB.ReturnByKey(k, amount))
  }

  // ------------------------------------------------------------ lease refresh

  /** `RefreshActivationLease` as written: the failure line has no `else`, so
      the success line follows it unconditionally. */
  function RefreshReportAsWritten(refreshed: bool, previousExpiry: Option<int>, newExpiry: Option<int>)
    : (r: seq<AB.RefreshLine>)
    ensures |r| > 0 && r[|r| - 1] == AB.SuccessfullyRefreshed(previousExpiry, newExpiry)
    ensures AB.CouldNotRefresh in r <==> !refreshed
  {
    (if !refreshed then [AB.CouldNotRefresh] else [])
      + [AB.SuccessfullyRefreshed(previousExpiry, newExpiry)]
  }

  /** The discrepancy: after a failed refresh the report still announces
      success, which the intended report never does. */
  lemma RefreshReportsSuccessAfterFailure(previousExpiry: Option<int>, newExpiry: Option<int>)
    ensures AB.SuccessfullyRefreshed(previousExpiry, newExpiry) in RefreshReportAsWritten(false, previousExpiry, newExpiry)
    ensures AB.SuccessfullyRefreshed(previousExpiry, newExpiry) !in AB.RefreshReport(false, previousExpiry, newExpiry)
  {
  }

  /** On a successful refresh the report as written is the intended one. */
  lemma RefreshReportAgreesOnSuccess(previousExpiry: Option<int>, newExpiry: Option<int>)
    ensures RefreshReportAsWritten(true, previousExpiry, newExpiry) == AB.RefreshReport(true, previousExpiry, newExpiry)
  {
  }
}

=== FILE: online_program.dfy ===
/** The online-only front-end's menu loop: no mode filtering, and a fixed seat
    ID. */
module OnlineProgram {
  import opened Wrappers
  import opened Sequences
  import opened Licensing
  import opened OnlineActionRecord
  import opened Session
  import OA = OnlineActions

  /** The seat ID is a constant, the same on every machine and every run. */
  const SeatId: string := "demo-machine-id-6as5d4a65s5-sdk-039"

  /** The menu: every label of the state's list, in order, then "Quit"; the
      mode plays no part. */
  function Menu(snapshot: Snapshot): (r: seq<string>)
    ensures |r| == |OA.AvailableActions(snapshot.state)| + 1
    ensures r[|r| - 1] == QuitAction
    ensures forall i :: 0 <= i < |r| - 1 ==> r[i] == OA.AvailableActions(snapshot.state)[i].name
  {
    Names(OA.AvailableActions(snapshot.state)) + [QuitAction]
  }

  /** One iteration: "Quit" runs nothing; any other label is resolved by first
      match in the list of the state read after the prompt. */
  function Step(r: Round): (o: StepOutcome)
    ensures o.Quit? <==> r.choice == QuitAction
    ensures o.Ran? ==> exists a :: a in OA.AvailableActions(r.after) && a.name == r.choice && a.action == o.action
    ensures o.NoMatch? <==> r.choice != QuitAction && r.choice !in Names(OA.AvailableActions(r.after))
  {
    if r.choice == QuitAction then Quit
    else
      match Resolve(OA.AvailableActions(r.after), r.choice)
      case None => NoMatch
      case Some(a) => Ran(a.action)
  }

  /** The mode never changes the menu. */
  lemma MenuIgnoresMode(s: ActivationState, m1: NullableMode, m2: NullableMode)
    ensures Menu(Snapshot(s, m1)) == Menu(Snapshot(s, m2))
  {
  }

  /** With the state unchanged, choosing the `k`-th displayed label runs the
      `k`-th action of the list. */
  lemma StepRunsDisplayedAction(r: Round, k: nat)
    requires r.after == r.before.state
    requires k < |OA.AvailableActions(r.before.state)|
    requires r.choice == Menu(r.before)[k]
    ensures Step(r) == Ran(OA.AvailableActions(r.before.state)[k].action)
  {
    var t := OA.AvailableActions(r.before.state);
    OA.NamesDistinct(r.before.state);
    ResolveDisplayed(t, k);
    assert r.choice != QuitAction by {
      assert QuitAction !in Names(t);
    }
  }

  /** The whole session, as in the Activation front-end but unfiltered. */
  method RunSession(rounds: seq<Round>) returns (outcomes: seq<StepOutcome>)
    requires forall i :: 0 <= i < |rounds| ==> rounds[i].choice in Menu(rounds[i].before)
    ensures |outcomes| <= |rounds|
    ensures forall i :: 0 <= i < |outcomes| ==> outcomes[i] == Step(rounds[i])
    ensures forall i :: 0 <= i < |outcomes| - 1 ==> outcomes[i].Ran?
    ensures |outcomes| < |rounds| ==> |outcomes| > 0 && !outcomes[|outcomes| - 1].Ran?
    ensures forall i :: 0 <= i < |outcomes| ==> outcomes[i].NoMatch? ==> rounds[i].after != rounds[i].before.state
    ensures (forall i :: 0 <= i < |rounds| ==> rounds[i].after == rounds[i].before.state) ==>
      forall i :: 0 <= i < |outcomes| ==> !outcomes[i].NoMatch?
  {
    outcomes := RunLoop(rounds, Step);
    forall i | 0 <= i < |outcomes| && rounds[i].after == rounds[i].before.state
      ensures !outcomes[i].NoMatch?
    {
      var r := rounds[i];
      var menu := Menu(r.before);
      var k :| 0 <= k < |menu| && menu[k] == r.choice;
      if k < |menu| - 1 {
        StepRunsDisplayedAction(r, k);
      }
    }
  }
}

=== FILE: options_validation.dfy ===
/** The bridge that runs a FluentValidation validator when the host validates a
    configuration section: named-options filtering, the null check, and the
    one-message-per-error failure report. Which errors a validator reports for
    an options instance belongs to the validator and is an input here. */
module OptionsValidation {
  import opened Wrappers
  import opened Sequences

  /** One entry of the validator's `Errors`. */
  datatype ValidationError = ValidationError(propertyName: string, errorMessage: string)

  /** A bound options instance: its runtime type name and the errors its
      validator reports for it (valid exactly when there are none). */
  datatype OptionsInstance = OptionsInstance(typeName: string, errors: seq<ValidationError>)

  /** The host's `ValidateOptionsResult`. */
  datatype ValidateOptionsResult = Skip | Success | Fail(failures: seq<string>)

  /** What `Validate` does: return a result, or throw `ArgumentNullException`. */
  datatype Validation = Returned(result: ValidateOptionsResult) | ThrewArgumentNull

  /** The failure line for one error: `'Type.Property': 'message'.` — the
      qualified property name and the message each in single quotes, joined by
      `: ` and closed by a full stop. */
  function Message(typeName: string, e: ValidationError): (r: string)
    ensures |r| == |typeName| + |e.propertyName| + |e.errorMessage| + 8
    ensures r[0] == '\'' && r[1..|typeName| + 1] == typeName && r[|typeName| + 1] == '.'
    ensures r[|typeName| + 2..|typeName| + 2 + |e.propertyName|] == e.propertyName
    ensures r[|typeName| + 2 + |e.propertyName|..|typeName| + 6 + |e.propertyName|] == "': '"
    ensures r[|r| - |e.errorMessage| - 2..|r| - 2] == e.errorMessage && r[|r| - 2..] == "'."
  {
    "'" + typeName + "." + e.propertyName + "': '" + e.errorMessage + "'."
  }

  /** The registration is for one named instance and this call is for another. */
  predicate NotThisInstance(registeredName: Option<string>, name: Option<string>) {
    registeredName.Some? && registeredName != name
  }

  /** `FluentValidationOptions.Validate`. A registration made with a null name
      validates every named instance; otherwise only the instance of its name. */
  function Validate(registeredName: Option<string>, name: Option<string>, options: Option<OptionsInstance>): (r: Validation)
    ensures r == Returned(Skip) <==> NotThisInstance(registeredName, name)
    ensures r.ThrewArgumentNull? <==> !NotThisInstance(registeredName, name) && options.None?
    ensures r == Returned(Success) <==>
      (!NotThisInstance(registeredName, name) && options.Some? && options.value.errors == [])
    ensures r.Returned? && r.result.Fail? ==>
      options.Some? && r.result.failures != [] && |r.result.failures| == |options.value.errors|
    ensures r.Returned? && r.result.Fail? ==>
      forall i :: 0 <= i < |r.result.failures| ==>
        r.result.failures[i] == Message(options.value.typeName, options.value.errors[i])
  {
    if NotThisInstance(registeredName, name) then Returned(Skip)
    else if options.None? then ThrewArgumentNull
    else if options.value.errors == [] then Returned(Success)
    else
      var o := options.value;
      Returned(Fail(seq(|o.errors|, i requires 0 <= i < |o.errors| => Message(o.typeName, o.errors[i]))))
  }

  // ------------------------------------------------------ reading a failure back

  /** Splits a failure line of the given options type back into its property
      name and message. The property name ends at its first quote; the message
      is everything between `': '` and the final `'.`, quotes included. */
  function ParseMessage(typeName: string, m: string): (r: Option<ValidationError>)
    ensures r.Some? ==> '\'' !in r.value.propertyName
  {
    var head := "'" + typeName + ".";
    if |m| < |head| || m[..|head|] != head then None
    else
      var rest := m[|head|..];
      match FirstIndex(rest, '\'')
      case None => None
      case Some(k) =>
        var tail := rest[k..];
        if |tail| >= 6 && tail[..4] == "': '" && tail[|tail| - 2..] == "'." then
          Some(ValidationError(rest[..k], tail[4..|tail| - 2]))
        else None
  }

  /** A failure line is the type prefix, the property name, and the quoted message. */
  lemma MessageSplits(typeName: string, e: ValidationError)
    ensures Message(typeName, e) ==
      ("'" + typeName + ".") + (e.propertyName + ("': '" + e.errorMessage + "'."))
  {
  }

  /** The quote that closes the property name is the first quote after the
      type prefix, whenever the property name has none of its own. */
  lemma ClosingQuoteFound(p: string, suffix: string)
    requires '\'' !in p
    requires |suffix| > 0 && suffix[0] == '\''
    ensures FirstIndex(p + suffix, '\'') == Some(|p|)
  {
    var s := p + suffix;
    assert s[|p|] == '\'';
    assert forall j :: 0 <= j < |p| ==> s[j] == p[j];
  }

  /** Round trip: a failure line gives back the error it was made from, as long
      as the property name holds no quote (a property path never does; the
      message may hold any characters). */
  lemma ParseMessageOfMessage(typeName: string, e: ValidationError)
    requires '\'' !in e.propertyName
    ensures ParseMessage(typeName, Message(typeName, e)) == Some(e)
  {
    var m := Message(typeName, e);
    var head := "'" + typeName + ".";
    var p, g := e.propertyName, e.errorMessage;
    var suffix := "': '" + g + "'.";
    MessageSplits(typeName, e);
    assert m[..|head|] == head;
    var rest := m[|head|..];
    assert rest == p + suffix;
    ClosingQuoteFound(p, suffix);
    var tail := rest[|p|..];
    assert tail == suffix;
    assert tail[..4] == "': '";
    assert tail[|tail| - 2..] == "'.";
    assert rest[..|p|] == p;
    assert tail[4..|tail| - 2] == g;
  }

  /** The converse: whatever parses is exactly the line of what it parses to. */
  lemma MessageOfParse(typeName: string, m: string)
    requires ParseMessage(typeName, m).Some?
    ensures Message(typeName, ParseMessage(typeName, m).value) == m
  {
    var head := "'" + typeName + ".";
    assert |m| >= |head| && m[..|head|] == head;
    var rest := m[|head|..];
    assert m == head + rest;
    var k := FirstIndex(rest, '\'').value;
    var tail := rest[k..];
    var e := ValidationError(rest[..k], tail[4..|tail| - 2]);
    assert ParseMessage(typeName, m) == Some(e);
    assert tail[..4] == "': '" && tail[|tail| - 2..] == "'.";
    assert tail == "': '" + e.errorMessage + "'.";
    assert rest == e.propertyName + tail;
    MessageSplits(typeName, e);
  }

  /** Different errors of one options type never share a failure line. */
  lemma MessageInjective(typeName: string, e1: ValidationError, e2: ValidationError)
    requires '\'' !in e1.propertyName && '\'' !in e2.propertyName
    requires Message(typeName, e1) == Message(typeName, e2)
    ensures e1 == e2
  {
    ParseMessageOfMessage(typeName, e1);
    ParseMessageOfMessage(typeName, e2);
  }

  /** A failed validation loses nothing: every reported error, in order, can be
      read back from the failure list. */
  lemma FailuresRecoverErrors(registeredName: Option<string>, name: Option<string>, o: OptionsInstance)
    requires forall i :: 0 <= i < |o.errors| ==> '\'' !in o.errors[i].propertyName
    requires o.errors != []
    ensures Validate(registeredName, name, Some(o)).Returned?
    ensures var r := Validate(registeredName, name, Some(o)).result;
      r.Skip? || (r.Fail? && |r.failures| == |o.errors| &&
        forall i :: 0 <= i < |o.errors| ==> ParseMessage(o.typeName, r.failures[i]) == Some(o.errors[i]))
  {
    var r := Validate(registeredName, name, Some(o)).result;
    if !r.Skip? {
      forall i | 0 <= i < |o.errors|
        ensures ParseMessage(o.typeName, r.failures[i]) == Some(o.errors[i])
      {
        ParseMessageOfMessage(o.typeName, o.errors[i]);
      }
    }
  }
}

=== FILE: sequences.dfy ===
/** The two LINQ operators the console front-ends rely on, over Dafny sequences:
    `Where` (an order-preserving filter) and `First` by key (first-match lookup),
    plus the "no value repeats" property that makes first-match unambiguous. */
module Sequences {
  import opened Wrappers

  /** LINQ `Where`: the elements of `s` satisfying `p`, in their original order. */
  function Where<T>(s: seq<T>, p: T -> bool): (r: seq<T>)
    ensures |r| <= |s|
    ensures forall i :: 0 <= i < |r| ==> r[i] in s && p(r[i])
    ensures forall i :: 0 <= i < |s| && p(s[i]) ==> s[i] in r
    decreases |s|
  {
    if s == [] then []
    else
      var rest := Where(s[1..], p);
      assert forall i :: 1 <= i < |s| ==> s[i] == s[1..][i - 1];
      if p(s[0]) then [s[0]] + rest else rest
  }

  /** Filtering distributes over concatenation: this is what "in table order" means. */
  lemma {:induction false} WhereAppend<T>(a: seq<T>, b: seq<T>, p: T -> bool)
    ensures Where(a + b, p) == Where(a, p) + Where(b, p)
    decreases |a|
  {
    if a == [] {
      assert a + b == b;
    } else {
      assert (a + b)[0] == a[0];
      assert (a + b)[1..] == a[1..] + b;
      WhereAppend(a[1..], b, p);
    }
  }

  /** Filtering with a predicate that every element meets changes nothing. */
  lemma {:induction false} WhereKeepsAll<T>(s: seq<T>, p: T -> bool)
    requires forall i :: 0 <= i < |s| ==> p(s[i])
    ensures Where(s, p) == s
    decreases |s|
  {
    if s != [] {
      WhereKeepsAll(s[1..], p);
    }
  }

  /** Filtering with a predicate that no element meets leaves nothing. */
  lemma {:induction false} WhereDropsAll<T>(s: seq<T>, p: T -> bool)
    requires forall i :: 0 <= i < |s| ==> !p(s[i])
    ensures Where(s, p) == []
    decreases |s|
  {
    if s != [] {
      WhereDropsAll(s[1..], p);
    }
  }

  /** No value occurs twice. */
  predicate Distinct<T(==)>(s: seq<T>) {
    forall i, j :: 0 <= i < j < |s| ==> s[i] != s[j]
  }

  /** LINQ `First(x => x == key)` on a sequence of keys, as an index: `None` is
      the case in which `First` throws because nothing matches. */
  function FirstIndex<T(==)>(s: seq<T>, key: T): (r: Option<nat>)
    ensures r.None? <==> key !in s
    ensures r.Some? ==> r.value < |s| && s[r.value] == key
    ensures r.Some? ==> forall j :: 0 <= j < r.value ==> s[j] != key
    decreases |s|
  {
    if s == [] then None
    else if s[0] == key then Some(0)
    else
      match FirstIndex(s[1..], key)
      case None => None
      case Some(i) => Some(i + 1)
  }

  /** When keys are distinct, the first match is the only match. */
  lemma FirstIndexOfDistinct<T>(s: seq<T>, key: T, k: nat)
    requires Distinct(s)
    requires k < |s| && s[k] == key
    ensures FirstIndex(s, key) == Some(k)
  {
  }
}

=== FILE: session.dfy ===
/** The menu loop the Activation and online-only front-ends share:
    `do { show menu; read choice; run one action } while (choice != "Quit")`.
    The SDK is an oracle: each round records the state and mode read to build
    the menu, the user's choice, and the state read again to resolve the choice
    after the prompt. */
module Session {
  import opened Licensing

  datatype Round = Round(before: Snapshot, choice: string, after: ActivationState)

  /** What one iteration does: ends the loop on "Quit", runs exactly one
      action, or finds no action of that name, where `First` throws and the
      exception ends the program. */
  datatype StepOutcome = Quit | Ran(action: Command) | NoMatch

  /** Runs rounds until one does not run an action; running out of rounds
      stands for the process being stopped from outside. */
  method RunLoop(rounds: seq<Round>, step: Round -> StepOutcome) returns (outcomes: seq<StepOutcome>)
    ensures |outcomes| <= |rounds|
    ensures forall i :: 0 <= i < |outcomes| ==> outcomes[i] == step(rounds[i])
    ensures forall i :: 0 <= i < |outcomes| - 1 ==> outcomes[i].Ran?
    ensures |outcomes| < |rounds| ==> |outcomes| > 0 && !outcomes[|outcomes| - 1].Ran?
  {
    outcomes := [];
    var i := 0;
    var running := true;
    while running && i < |rounds|
      invariant 0 <= i <= |rounds|
      invariant |outcomes| == i
      invariant forall j :: 0 <= j < i ==> outcomes[j] == step(rounds[j])
      invariant forall j :: 0 <= j < i - 1 ==> outcomes[j].Ran?
      invariant running <==> (i == 0 || outcomes[i - 1].Ran?)
    {
      var outcome := step(rounds[i]);
      outcomes := outcomes + [outcome];
      running := outcome.Ran?;
      i := i + 1;
    }
  }
}

=== FILE: shared_actions.dfy ===
/** The action table of the Shared front-end, in which several processes share
    one persisted activation. It offers fewer commands than the Activation
    front-end (no offline activation or token login), lets some of them run
    before the mode is known, and adds `Acquire lock`, which holds the shared
    lock until a key is pressed. The action bodies' decision logic is the one in
    `ActionBodies`, which this front-end duplicates verbatim. */
module SharedActions {
  import opened Wrappers
  import opened Sequences
  import opened Licensing
  import opened ActionRecord

  const AcquireLock := ActivationAction(
    "Acquire lock", Command.AcquireLock, [Some(Online), Some(Offline), None])
  const ActivateWithCode := ActivationAction(
    "Activate license with code", Command.ActivateWithCode, [Some(Online), None])
  const ShowActivationInfo := ActivationAction(
    "Show activation info", Command.ShowActivationInfo, [Some(Online), Some(Offline), None])
  const PullActivationStateFromServer := ActivationAction(
    "Pull activation state from the server", Command.PullActivationStateFromServer, [Some(Online), None])
  const PullActivationStateFromLocalStorage := ActivationAction(
    "Pull activation state from the local storage", Command.PullActivationStateFromLocalStorage,
    [Some(Online), None])
  const RefreshActivationLease := ActivationAction(
    "Refresh activation lease", Command.RefreshActivationLease, [Some(Online)])
  const CheckoutFeature := ActivationAction(
    "Checkout advanced feature", Command.CheckoutFeature, [Some(Online)])
  const ReturnFeature := ActivationAction(
    "Return element-pool feature", Command.ReturnFeature, [Some(Online)])
  const TrackBoolFeatureUsage := ActivationAction(
    "Track usage of a bool feature", Command.TrackBoolFeatureUsage, [Some(Online)])
  const GetActivationEntitlement := ActivationAction(
    "Get entitlement associated with the activation", Command.GetActivationEntitlement, [Some(Online)])
  const Deactivate := ActivationAction(
    "Deactivate license", Command.Deactivate, [Some(Online)])

  /** The `AvailableActions` dictionary: the ordered actions of each
      activation state (it has an entry for every state). */
  function AvailableActions(s: ActivationState): (r: seq<ActivationAction>)
    ensures |r| >= 2 && r[0] == ShowActivationInfo && r[|r| - 1] == AcquireLock
  {
    match s
    case Active => [
      ShowActivationInfo, PullActivationStateFromServer, PullActivationStateFromLocalStorage,
      CheckoutFeature, ReturnFeature, TrackBoolFeatureUsage, RefreshActivationLease,
      Deactivate, GetActivationEntitlement, AcquireLock]
    case LeaseExpired => [
      ShowActivationInfo, PullActivationStateFromServer, PullActivationStateFromLocalStorage,
      RefreshActivationLease, Deactivate,
      GetActivationEntitlement, AcquireLock]
    case NotActivated => [
      ShowActivationInfo, PullActivationStateFromLocalStorage,
      ActivateWithCode, AcquireLock]
    case EntitlementNotActive => [
      ShowActivationInfo, PullActivationStateFromServer, PullActivationStateFromLocalStorage,
      GetActivationEntitlement,
      ActivateWithCode, AcquireLock]
  }

  /** The intended mode set of each command, stated independently of the table:
      showing the record and taking the lock are always possible; activating
      and pulling state need the server or no activation yet; every other
      backend call needs an online activation. */
  function IntendedModes(c: Command): (r: set<NullableMode>) {
    if c in {Command.ShowActivationInfo, Command.AcquireLock} then {Some(Online), Some(Offline), None}
    else if c in {Command.ActivateWithCode, Command.PullActivationStateFromServer,
                  Command.PullActivationStateFromLocalStorage} then {Some(Online), None}
    else {Some(Online)}
  }

  /** Every entry of every list carries exactly its intended mode set. */
  lemma ModeSetsAsIntended(s: ActivationState, a: ActivationAction, m: NullableMode)
    requires a in AvailableActions(s)
    ensures OfferedIn(a, m) <==> m in IntendedModes(a.action)
  {
    EntriesAsIntended();
  }

  /** An entry is offered in exactly the modes its command is meant for. */
  ghost predicate AsIntended(a: ActivationAction) {
    forall m :: OfferedIn(a, m) <==> m in IntendedModes(a.action)
  }

  /** Each entry of the table, taken on its own. */
  lemma EntriesAsIntended()
    ensures AsIntended(AcquireLock)
    ensures AsIntended(ActivateWithCode)
    ensures AsIntended(ShowActivationInfo)
    ensures AsIntended(PullActivationStateFromServer)
    ensures AsIntended(PullActivationStateFromLocalStorage)
    ensures AsIntended(RefreshActivationLease)
    ensures AsIntended(CheckoutFeature)
    ensures AsIntended(ReturnFeature)
    ensures AsIntended(TrackBoolFeatureUsage)
    ensures AsIntended(GetActivationEntitlement)
    ensures AsIntended(Deactivate)
  {
    EntryAsIntended(AcquireLock);
    EntryAsIntended(ActivateWithCode);
    EntryAsIntended(ShowActivationInfo);
    EntryAsIntended(PullActivationStateFromServer);
    EntryAsIntended(PullActivationStateFromLocalStorage);
    EntryAsIntended(RefreshActivationLease);
    EntryAsIntended(CheckoutFeature);
    EntryAsIntended(ReturnFeature);
    EntryAsIntended(TrackBoolFeatureUsage);
    EntryAsIntended(GetActivationEntitlement);
    EntryAsIntended(Deactivate);
  }

  lemma EntryAsIntended(a: ActivationAction)
    requires a in {AcquireLock, ActivateWithCode, ShowActivationInfo,
                   PullActivationStateFromServer, PullActivationStateFromLocalStorage,
                   RefreshActivationLease, CheckoutFeature, ReturnFeature, TrackBoolFeatureUsage,
                   GetActivationEntitlement, Deactivate}
    ensures AsIntended(a)
  {
    forall m | true
      ensures OfferedIn(a, m) <==> m in IntendedModes(a.action)
    {
      match m
      case None =>
      case Some(Online) =>
      case Some(Offline) =>
    }
  }

  /** No label repeats within a state's list. */
  lemma NamesDistinct(s: ActivationState)
    ensures Distinct(Names(AvailableActions(s)))
  {
  }

  /** `Acquire lock` closes every state's list and survives every mode filter,
      including the one for "no mode yet". */
  lemma AcquireLockLastEverywhere(s: ActivationState, m: NullableMode)
    ensures |AvailableActions(s)| > 0
    ensures AvailableActions(s)[|AvailableActions(s)| - 1] == AcquireLock
    ensures AcquireLock in InMode(AvailableActions(s), m)
  {
    var t := AvailableActions(s);
    assert t[|t| - 1] == AcquireLock;
    assert OfferedIn(AcquireLock, m) by {
      match m
      case None =>
      case Some(mode) => assert mode == Online || mode == Offline;
    }
    InModeExactly(t, m, AcquireLock);
  }

  /** Under an offline activation, every state's menu collapses to showing the
      record and taking the lock. */
  lemma OfflineMenuCollapses(s: ActivationState)
    ensures Names(InMode(AvailableActions(s), Some(Offline))) == ["Show activation info", "Acquire lock"]
  {
    var t := AvailableActions(s);
    forall i | 0 < i < |t| - 1
      ensures !OfferedIn(t[i], Some(Offline))
    {
      OfflineHidesMiddle(s, i);
    }
    AcquireLockLastEverywhere(s, Some(Offline));
    assert t[0] == ShowActivationInfo && OfferedIn(t[0], Some(Offline));
    InModeFirstAndLast(t, Some(Offline));
  }

  /** Between the info entry and the lock, no entry of any list is offered
      under an offline activation. */
  lemma OfflineHidesMiddle(s: ActivationState, i: nat)
    requires 0 < i < |AvailableActions(s)| - 1
    ensures !OfferedIn(AvailableActions(s)[i], Some(Offline))
  {
    var a := AvailableActions(s)[i];
    ModeSetsAsIntended(s, a, Some(Offline));
    assert a.action != Command.ShowActivationInfo && a.action != Command.AcquireLock;
  }
}

=== FILE: shared_program.dfy ===
/** The Shared front-end's session loop. Each iteration builds the menu and
    snapshots the state under one exclusive section of the cross-process lock,
    prompts with no lock held, then, under a second exclusive section,
    re-reads the state and runs the chosen action only if the state is the one
    the menu was built for. The lock itself belongs to the SDK and is modelled
    by the events it brackets. */
module SharedProgram {
  import opened Wrappers
  import opened Sequences
  import opened Licensing
  import opened ActionRecord
  import SA = SharedActions

  // --------------------------------------------------------------- lock name

  const LockNamePrefix: string := "Global\\Zentitle.Licensing.Client-"

  /** The system lock's name: a fixed prefix and the executing assembly's name,
      with no per-run part, so every run of the same tool contends for the
      same lock. */
  function LockName(assemblyName: string): (r: string)
    ensures |r| == |LockNamePrefix| + |assemblyName|
    ensures r[..|LockNamePrefix|] == LockNamePrefix
    ensures r[|LockNamePrefix|..] == assemblyName
  {
    LockNamePrefix + assemblyName
  }

  /** Two tools share a lock exactly when their assemblies share a name. */
  lemma LockNameInjective(a: string, b: string)
    ensures LockName(a) == LockName(b) <==> a == b
  {
    if LockName(a) == LockName(b) {
      assert a == LockName(a)[|LockNamePrefix|..];
    }
  }

  // ------------------------------------------------------------------ rounds

  /** One iteration as the SDK presents it. The first section reads the mode
      and the state to build the menu (`menuRead`), then the state once more as
      the snapshot it returns (`snapshot`); after the prompt, the second section
      reads the state for the comparison (`compared`) and once more to look the
      choice up (`lookedUp`). The lock keeps other processes out of a section,
      but each read is a fresh query, so the model lets every read differ. */
  datatype SharedRound = SharedRound(
    menuRead: Snapshot,
    snapshot: ActivationState,
    choice: string,
    compared: ActivationState,
    lookedUp: ActivationState)

  /** `Aborted` is the "Local activation state changed" error; `NoMatch` is
      `First` throwing inside the second section, which nothing catches. */
  datatype SharedOutcome = Quit | Aborted | Ran(action: Command) | NoMatch

  /** No read inside either section saw the state move: the snapshot is the
      state the menu was built for, and the lookup uses the compared state. */
  predicate StableSections(r: SharedRound) {
    r.snapshot == r.menuRead.state && r.lookedUp == r.compared
  }

  /** The menu built inside the first section: the labels of the state's table
      offered in the mode, in table order, then Quit. */
  function Menu(snapshot: Snapshot): (r: seq<string>)
    ensures |r| > 0 && r[|r| - 1] == QuitAction
    ensures r[..|r| - 1] == Names(InMode(SA.AvailableActions(snapshot.state), snapshot.mode))
    ensures forall a :: a in SA.AvailableActions(snapshot.state) && OfferedIn(a, snapshot.mode) ==>
      a.name in r[..|r| - 1]
  {
    MenuOf(SA.AvailableActions(snapshot.state), snapshot.mode)
  }

  /** What the second section does. Only `State` is compared, against the
      snapshot; the lookup then indexes the table by the state read afresh. */
  function Execute(r: SharedRound): (o: SharedOutcome)
    ensures o.Quit? <==> r.choice == QuitAction
    ensures o.Aborted? <==> r.choice != QuitAction && r.compared != r.snapshot
    ensures o.NoMatch? <==>
      r.choice != QuitAction && r.compared == r.snapshot && r.choice !in Names(SA.AvailableActions(r.lookedUp))
    ensures o.Ran? ==> r.compared == r.snapshot
    ensures o.Ran? ==>
      exists a :: a in SA.AvailableActions(r.lookedUp) && a.name == r.choice && a.action == o.action
  {
    if r.choice == QuitAction then Quit
    else if r.snapshot != r.compared then Aborted
    else
      match Resolve(SA.AvailableActions(r.lookedUp), r.choice)
      case None => NoMatch
      case Some(a) => Ran(a.action)
  }

  /** The stale-state guard makes resolution total when the sections are
      stable: once the states agree, a displayed choice always resolves, to the
      action that was displayed under the snapshot's mode. */
  lemma GuardedResolutionSucceeds(r: SharedRound)
    requires r.choice in Menu(r.menuRead) && r.choice != QuitAction
    requires StableSections(r) && r.compared == r.snapshot
    ensures Execute(r).Ran?
    ensures exists a ::
      (a in InMode(SA.AvailableActions(r.menuRead.state), r.menuRead.mode) &&
       a.name == r.choice && a.action == Execute(r).action)
  {
    var t := SA.AvailableActions(r.menuRead.state);
    SA.NamesDistinct(r.menuRead.state);
    assert r.choice in Names(InMode(t, r.menuRead.mode));
    ResolveDisplayed(t, r.menuRead.mode, r.choice);
  }

  /** The comparison and the lookup read the state separately, so a state
      that moves between them (a lease expiring inside the section) passes the
      guard and still makes `First` throw on a displayed choice. */
  lemma LookupReadCanThrow()
    ensures "Checkout advanced feature" in Menu(Snapshot(Active, Some(Online)))
    ensures Execute(SharedRound(Snapshot(Active, Some(Online)), Active, "Checkout advanced feature",
                                Active, LeaseExpired)) == NoMatch
  {
    var t := SA.AvailableActions(Active);
    assert t[3] == SA.CheckoutFeature;
    assert OfferedIn(SA.CheckoutFeature, Some(Online));
    CheckoutNotOfferedAfterExpiry();
  }

  lemma CheckoutNotOfferedAfterExpiry()
    ensures "Checkout advanced feature" !in Names(SA.AvailableActions(LeaseExpired))
  {
    var n := Names(SA.AvailableActions(LeaseExpired));
    forall i | 0 <= i < |n|
      ensures n[i] != "Checkout advanced feature"
    {
      assert n[i] == SA.AvailableActions(LeaseExpired)[i].name;
    }
  }

  /** The second section reads no mode at all, so an action chosen under one
      mode runs whatever the mode has become, even a mode that would not offer
      it: a checkout picked online still runs after the record became an
      offline activation in the same state. */
  lemma ModeChangeGoesUnnoticed()
    ensures Execute(SharedRound(Snapshot(Active, Some(Online)), Active, "Checkout advanced feature",
                                Active, Active)) == Ran(Command.CheckoutFeature)
    ensures !OfferedIn(SA.CheckoutFeature, Some(Offline))
  {
    var t := SA.AvailableActions(Active);
    assert t[3] == SA.CheckoutFeature;
    assert Names(t)[3] == "Checkout advanced feature";
    SA.NamesDistinct(Active);
    FirstIndexOfDistinct(Names(t), "Checkout advanced feature", 3);
  }

  // ------------------------------------------------------------ lock events

  /** What the session does, in order, as far as the lock is concerned. */
  datatype Event =
    | Acquire
    | Release
    | ReadMode(mode: NullableMode)
    | ReadState(state: ActivationState)
    | Prompt(options: seq<string>)  // the menu prompt of the loop
    | WriteStaleStateError
    | Invoke(action: Command)

  /** The lock discipline of the loop's own steps, from a point where the lock
      is `held` or not: the lock is never taken twice or released when free;
      the mode and state are read and actions are invoked or refused only while
      it is held; the menu prompt is shown only while it is free; and it is
      free at the end. An `Invoke` is one opaque step, so the prompts and key
      waits inside an action body, which run with the lock held, are not
      events here. */
  predicate Disciplined(log: seq<Event>, held: bool)
    decreases |log|
  {
    if log == [] then !held
    else
      match log[0]
      case Acquire => !held && Disciplined(log[1..], true)
      case Release => held && Disciplined(log[1..], false)
      case Prompt(_) => !held && Disciplined(log[1..], false)
      case ReadMode(_) => held && Disciplined(log[1..], true)
      case ReadState(_) => held && Disciplined(log[1..], true)
      case WriteStaleStateError => held && Disciplined(log[1..], true)
      case Invoke(_) => held && Disciplined(log[1..], true)
  }

  /** A disciplined log followed by a disciplined log is disciplined. */
  lemma {:induction false} DisciplinedAppend(a: seq<Event>, b: seq<Event>, held: bool)
    requires Disciplined(a, held)
    requires Disciplined(b, false)
    ensures Disciplined(a + b, held)
    decreases |a|
  {
    if a == [] {
      assert a + b == b;
    } else {
      assert (a + b)[0] == a[0];
      assert (a + b)[1..] == a[1..] + b;
      match a[0]
      case Acquire => DisciplinedAppend(a[1..], b, true);
      case Release => DisciplinedAppend(a[1..], b, false);
      case Prompt(_) => DisciplinedAppend(a[1..], b, false);
      case ReadMode(_) => DisciplinedAppend(a[1..], b, true);
      case ReadState(_) => DisciplinedAppend(a[1..], b, true);
      case WriteStaleStateError => DisciplinedAppend(a[1..], b, true);
      case Invoke(_) => DisciplinedAppend(a[1..], b, true);
    }
  }

  /** The events the state is read and acted on with, which need the lock. */
  predicate NeedsLock(e: Event) {
    e.ReadMode? || e.ReadState? || e.WriteStaleStateError? || e.Invoke?
  }

  /** One `ExecuteWithLock` call: take the lock, run `body`, release it. */
  function Section(body: seq<Event>): (r: seq<Event>)
    ensures |r| == |body| + 2 && r[0] == Acquire && r[|r| - 1] == Release
  {
    [Acquire] + body + [Release]
  }

  lemma {:induction false} SectionDisciplined(body: seq<Event>)
    requires forall i :: 0 <= i < |body| ==> NeedsLock(body[i])
    ensures Disciplined(Section(body), false)
  {
    HeldBodyDisciplined(body);
    assert Section(body)[1..] == body + [Release];
  }

  lemma {:induction false} HeldBodyDisciplined(body: seq<Event>)
    requires forall i :: 0 <= i < |body| ==> NeedsLock(body[i])
    ensures Disciplined(body + [Release], true)
    decreases |body|
  {
    if body == [] {
      assert Disciplined([Release][1..], false);
    } else {
      assert (body + [Release])[1..] == body[1..] + [Release];
      HeldBodyDisciplined(body[1..]);
    }
  }

  /** The events the second section leaves after the comparison read. */
  function OutcomeEvents(r: SharedRound): (es: seq<Event>)
    ensures forall i :: 0 <= i < |es| ==> NeedsLock(es[i])
  {
    match Execute(r)
    case Aborted => [WriteStaleStateError]
    case Ran(a) => [ReadState(r.lookedUp), Invoke(a)]
    case NoMatch => [ReadState(r.lookedUp)]
    case Quit => []
  }

  /** The events of one iteration: the reads for the menu and the snapshot
      under the first lock, the prompt with no lock held, and, unless the user
      quit, the re-check and its outcome under the second lock. */
  function RoundEvents(r: SharedRound): (es: seq<Event>) {
    Section([ReadMode(r.menuRead.mode), ReadState(r.menuRead.state), ReadState(r.snapshot)]) +
    ([Prompt(Menu(r.menuRead))] + RecheckEvents(r))
  }

  function RecheckEvents(r: SharedRound): (es: seq<Event>) {
    if r.choice == QuitAction then []
    else Section([ReadState(r.compared)] + OutcomeEvents(r))
  }

  lemma RoundEventsDisciplined(r: SharedRound)
    ensures Disciplined(RoundEvents(r), false)
  {
    var first := [ReadMode(r.menuRead.mode), ReadState(r.menuRead.state), ReadState(r.snapshot)];
    SectionDisciplined(first);
    var rest := RecheckEvents(r);
    if r.choice != QuitAction {
      SectionDisciplined([ReadState(r.compared)] + OutcomeEvents(r));
    }
    var tail := [Prompt(Menu(r.menuRead))] + rest;
    assert tail[1..] == rest;
    DisciplinedAppend(Section(first), tail, false);
  }

  /** With a displayed choice and stable sections, the second section never
      meets a failed lookup. */
  lemma ExecuteNeverFailsToResolve(r: SharedRound)
    requires r.choice in Menu(r.menuRead)
    requires StableSections(r)
    ensures !Execute(r).NoMatch?
  {
    if r.choice != QuitAction && r.compared == r.snapshot {
      GuardedResolutionSucceeds(r);
    }
  }

  /** An outcome the loop does not survive: the user quit, or `First` threw. */
  predicate EndsSession(o: SharedOutcome) {
    o.Quit? || o.NoMatch?
  }

  /** The events of a run of iterations, one after another. */
  function Log(rs: seq<SharedRound>, events: SharedRound -> seq<Event>): (r: seq<Event>)
    decreases |rs|
  {
    if rs == [] then [] else Log(rs[..|rs| - 1], events) + events(rs[|rs| - 1])
  }

  /** Iterations that each keep the lock discipline keep it together. */
  lemma {:induction false} LogDisciplined(rs: seq<SharedRound>, events: SharedRound -> seq<Event>)
    requires forall i :: 0 <= i < |rs| ==> Disciplined(events(rs[i]), false)
    ensures Disciplined(Log(rs, events), false)
    decreases |rs|
  {
    if rs != [] {
      var init := rs[..|rs| - 1];
      assert forall i :: 0 <= i < |init| ==> init[i] == rs[i];
      LogDisciplined(init, events);
      DisciplinedAppend(Log(init, events), events(rs[|rs| - 1]), false);
    }
  }

  /** The loop of the session, with the second section's decision and the
      events of an iteration as parameters: it runs iterations until the first
      one that ends the session and keeps the lock discipline of every one. */
  method RunRounds(
    rounds: seq<SharedRound>,
    execute: SharedRound -> SharedOutcome,
    events: SharedRound -> seq<Event>)
    returns (outcomes: seq<SharedOutcome>, log: seq<Event>)
    requires forall i :: 0 <= i < |rounds| ==> Disciplined(events(rounds[i]), false)
    ensures Disciplined(log, false)
    ensures |outcomes| <= |rounds|
    ensures log == Log(rounds[..|outcomes|], events)
    ensures forall i :: 0 <= i < |outcomes| ==> outcomes[i] == execute(rounds[i])
    ensures forall i :: 0 <= i < |outcomes| - 1 ==> !EndsSession(outcomes[i])
    ensures |outcomes| < |rounds| ==> |outcomes| > 0 && EndsSession(outcomes[|outcomes| - 1])
  {
    outcomes := [];
    log := [];
    var i := 0;
    var ended := false;
    while !ended && i < |rounds|
      invariant 0 <= i <= |rounds|
      invariant |outcomes| == i
      invariant Disciplined(log, false)
      invariant log == Log(rounds[..i], events)
      invariant forall j :: 0 <= j < i ==> outcomes[j] == execute(rounds[j])
      invariant forall j :: 0 <= j < i - 1 ==> !EndsSession(outcomes[j])
      invariant ended <==> (i > 0 && EndsSession(outcomes[i - 1]))
    {
      var outcome := execute(rounds[i]);
      DisciplinedAppend(log, events(rounds[i]), false);
      assert rounds[..i + 1][..i] == rounds[..i];
      log := log + events(rounds[i]);
      outcomes := outcomes + [outcome];
      ended := EndsSession(outcome);
      i := i + 1;
    }
  }

  /** The whole session. Each iteration prompts with no lock held, runs at most
      one action and only under the lock with the state unchanged, and aborts
      when the state changed. A displayed choice fails to resolve only when a
      read inside a section saw the state move, and that failure ends the
      session, as does the first Quit, which takes no second lock. */
  method RunSharedSession(rounds: seq<SharedRound>) returns (outcomes: seq<SharedOutcome>, log: seq<Event>)
    requires forall i :: 0 <= i < |rounds| ==> rounds[i].choice in Menu(rounds[i].menuRead)
    ensures Disciplined(log, false)
    ensures |outcomes| <= |rounds|
    ensures log == Log(rounds[..|outcomes|], RoundEvents)
    ensures forall i :: 0 <= i < |outcomes| ==> outcomes[i] == Execute(rounds[i])
    ensures forall i :: 0 <= i < |outcomes| ==> outcomes[i].NoMatch? ==> !StableSections(rounds[i])
    ensures forall i :: 0 <= i < |outcomes| ==> StableSections(rounds[i]) ==>
      (outcomes[i].Ran? <==> rounds[i].choice != QuitAction && rounds[i].compared == rounds[i].snapshot)
    ensures forall i :: 0 <= i < |outcomes| - 1 ==> outcomes[i].Ran? || outcomes[i].Aborted?
    ensures |outcomes| < |rounds| ==>
      |outcomes| > 0 && (outcomes[|outcomes| - 1].Quit? || outcomes[|outcomes| - 1].NoMatch?)
  {
    forall i | 0 <= i < |rounds|
      ensures Disciplined(RoundEvents(rounds[i]), false)
    {
      RoundEventsDisciplined(rounds[i]);
    }
    outcomes, log := RunRounds(rounds, Execute, RoundEvents);
    forall i | 0 <= i < |outcomes| && StableSections(rounds[i])
      ensures !outcomes[i].NoMatch?
    {
      ExecuteNeverFailsToResolve(rounds[i]);
    }
  }
}

=== FILE: wrappers.dfy ===
/** Nullable values. C#'s `T?` (a nullable value or reference) is modelled as
    `Option<T>`: `None` plays the role of `null`. */
module Wrappers {

  datatype Option<+T> = None | Some(value: T) {

    /** Returns the wrapped value, or `default` for `None` (C#'s `??`). */
    function GetOr(default: T): (r: T) {
      match this
      case Some(v) => v
      case None => default
    }
  }
}
